=== FILE: README.md ===
# ruby-torchat core, modelled in Dafny

A model of the core of torchat for Ruby, a serverless instant-messaging peer that talks to other
peers over Tor hidden-service ("onion") addresses. The model has three parts:

- **The buddy state machine** (`Buddy`, `Lifecycle`). A buddy is one remote peer. It has the
  flags `connecting`, `connected`, `verified`, `ready` and `pinged`, and holds at most one
  incoming and one outgoing transport. Every operation on a buddy is a pure function.
  `connect`, the block `EM.connect` runs on the new connection, `connected`, `verified`, `disconnect` and `disconnected`
  return a `Step`: the new peer, a trace of effects and the fault raised, if any. The effects
  are packets handed to a transport, transport notifications, closes, dial requests and fired
  events. `own!`, `ping!`, `pong!` and `ready!` return the new peer alone, as they neither
  raise nor emit. `send_packet`, `send_packet!` and `send_message` return the packet effect, or
  the fault when there is no outgoing transport. `Lifecycle.Apply` turns any of these changes
  into a `Step`, so that runs of them can be composed.
- **The orchestrators** (`Dispatch`, `Session`, `Server`, `Handshake`). Both keep a callback
  table: an ordered handler list per tag, filled by `on` and run by `received` and `fire`. The
  Session also installs default handlers: the profile bundle sent on `:verification`, and the
  setters for inbound profile packets. Its `name=` and `description=` push one packet to every
  registered buddy. `Session.Deliver` runs the events in a buddy's trace through the session's
  table. Every buddy transition fires its event as its last action, so this gives the same
  result as the synchronous dispatch in the source. The registry holds the buddy objects
  themselves: `Session.Signal` applies a transition to the registered buddy and
  `Session.ReceivedFrom` runs `received` with it as the sender. Both write the resulting buddy
  back under its key and deliver its events. A transition applied directly to a buddy value
  leaves the registry alone.
- **The registry** (`Registry`, `Onion`). It maps onion ids to buddies. A key is normalised by
  taking group 1 of `/^(.*?)(\.onion)?$/`. In Ruby `^` and `$` match at line boundaries, so that
  group is the first line with one trailing `.onion` removed. Lookup tries the exact key first,
  then the normalised key, then a scan over aliases and names.

Values the source gets from code outside these files are parameters:

- `Protocol.valid_address?` is the predicate `isAddress`.
- `Torchat.version` is the `release` field of a session.
- A user block is an opaque number. Dispatch records its call as `Invoked`.
- Connection objects are `Transport` values, known by a number and their owner back-reference.

## Model

| member | source | states |
|---|---|---|
| `Onion.FirstLine` | lib/torchat/session/buddy.rb:58 | the text the anchored pattern can see: the longest break-free prefix, which ends at the end of the string or at a line break |
| `Onion.Normalize` | lib/torchat/session/buddy.rb:58 | the bare id is a break-free prefix of the input; the first line is either that id or that id plus ".onion", and it is the second exactly when the line ends in ".onion" |
| `Onion.AddressOf` | lib/torchat/session/buddy.rb:59 | the address is the id followed by the suffix |
| `Onion.NormalizeIsLazyMatch` | lib/torchat/session/buddy.rb:58 | the normalised id ends where the lazy group `(.*?)` stops: the earliest point after which the line is empty or ".onion" |
| `Onion.NormalizeAddressOf` | lib/torchat/session/buddy.rb:58-59 | normalising `id + ".onion"` gives back any break-free id |
| `Onion.NormalizeBare` | lib/torchat/server/buddies.rb:34 | a break-free id without the suffix is left alone |
| `Onion.NormalizeStripsOnce` | lib/torchat/server/buddies.rb:34 | only one suffix is removed: "a.onion.onion" becomes "a.onion", which normalises again to "a" |
| `Settings.ParseIntOfDecimal` | lib/torchat/session.rb:128 | `to_i` reads a port written in decimal, signed or not, as that number |
| `Settings.ProxyOnConfiguredText` | lib/torchat/session.rb:82-87 | `tor` dials `connection.outgoing`'s host, and a decimal port text there, signed or not, as that number |
| `Settings.ListenEndpoint` | lib/torchat/server.rb:64-66 | an explicit host or port passed to `start` is used as given; a missing one falls back to `connection.incoming`, with the port converted by `to_i` (Session#start does the same, session.rb:126-128) |
| `Settings.ListenOnConfiguredText` | lib/torchat/session.rb:126-128 | with no explicit port, a decimal port text in the configuration is listened on as that number |
| `Buddy.OfflineUnlessConnected` | lib/torchat/session/buddy.rb:69-71 | a buddy that is not connected reads as `:offline`, whatever status is stored; a connected one reads as exactly the stored status, nil included (`online?` is `connected?`, line 114) |
| `Buddy.Own` | lib/torchat/session/buddy.rb:83-92 | an Incoming fills only the incoming slot and an Outgoing only the outgoing slot; anything else changes neither slot; afterwards every held transport is owned by this buddy and nothing else about the buddy changes |
| `Buddy.OwnIdempotent` | lib/torchat/session/buddy.rb:83-92 | adopting the same thing twice gives the same result as adopting it once |
| `Buddy.Blank` | lib/torchat/session/buddy.rb:57-61 | a new buddy has the given id and the address `id + ".onion"`, holds no transport, has every flag unset (`connecting` included), no stored status, name, description or alias, an empty avatar and an empty client record |
| `Buddy.New` | lib/torchat/session/buddy.rb:52-67 | the constructor fails with InvalidAddress exactly when the id is not an address; otherwise the id is normalised, `address == id + ".onion"`, both arguments are adopted in order, so each slot holds the last transport of its kind offered (or none), and one dial is requested (with `connecting` set) exactly when no outgoing transport was supplied; everything else is blank |
| `Buddy.Connect` | lib/torchat/session/buddy.rb:122-136 | a no-op while connecting or connected; otherwise it sets `connecting`, requests exactly one dial through the proxy and changes nothing else |
| `Buddy.AdoptDialed` | lib/torchat/session/buddy.rb:127-135 | the block `EM.connect` runs on the new connection adopts it as the outgoing transport, keeps the incoming one (owned by this buddy), changes nothing but the transports, and fires `:outgoing` with it |
| `Buddy.SendPacket` | lib/torchat/session/buddy.rb:98-102 | raises exactly when no outgoing transport is held; otherwise the packet goes to that transport |
| `Buddy.SendPacketForced` | lib/torchat/session/buddy.rb:104-108 | the same guard, and the packet goes through the transport's forced path |
| `Buddy.SendMessage` | lib/torchat/session/buddy.rb:110-112 | a `:message` with the text goes to the outgoing transport, under the same guard |
| `Buddy.Pinged` | lib/torchat/session/buddy.rb:95 | sets `pinged` and nothing else |
| `Buddy.Ponged` | lib/torchat/session/buddy.rb:96 | clears `pinged` and nothing else |
| `Buddy.PingPongRoundTrip` | lib/torchat/session/buddy.rb:94-96 | on a buddy that was not pinged, `pong!` undoes `ping!`; on one that was, `ping!` undoes `pong!` |
| `Buddy.MarkReady` | lib/torchat/session/buddy.rb:117-118 | sets `ready` and nothing else |
| `Buddy.Connected` | lib/torchat/session/buddy.rb:140-151 | a no-op on a connected buddy; otherwise it clears `connecting`, sets `connected` and `pinged`, sends one forced ping carrying the own address, then fires `:connection`; without an outgoing transport the flags are set and the ping raises |
| `Buddy.Verified` | lib/torchat/session/buddy.rb:155-163 | a no-op on a verified buddy; otherwise it sets `verified` (connected or not), notifies the outgoing transport once and fires `:verification` once; without an outgoing transport it raises after setting the flag |
| `Buddy.Disconnect` | lib/torchat/session/buddy.rb:165-174 | a no-op unless connected, so also while only connecting; otherwise it closes each held transport after writing, drops both, resets `verified`, `ready`, `connecting` and `connected`, and fires `:disconnection` once |
| `Buddy.Disconnected` | lib/torchat/session/buddy.rb:176-186 | a no-op unless connected; otherwise it resets the four flags and fires `:disconnection` once; both transports stay held and are not closed, because the nested `disconnect` returns early |
| `Lifecycle.ApplyKeepsCoherent` | lib/torchat/session/buddy.rb:122-186 | every transition keeps "never connecting and connected at once, every transport owned by its buddy" |
| `Lifecycle.DriveKeepsCoherent` | lib/torchat/session/buddy.rb:122-186 | the same holds after any sequence of signals, in any order, including runs in which some transitions raise |
| `Lifecycle.ApplyBalance` | lib/torchat/session/buddy.rb:140-186 | a single transition fires `:disconnection` only on a connected buddy; a buddy becomes connected without firing `:connection` only when the ping raises |
| `Lifecycle.DisconnectionsNeverOutnumberConnections` | lib/torchat/session/buddy.rb:140-186 | over any run, in which a raise ends only its own call, `:disconnection` fires no more often than `:connection`, plus one if the buddy started connected, plus the number of transitions that raised; a run without a raise keeps the bound without that term |
| `Lifecycle.RaisedConnectionStillEnds` | lib/torchat/session/buddy.rb:140-151 | the raise term is needed: `connected` without a transport raises yet leaves the buddy connected, and the following `disconnect` fires `:disconnection` with no `:connection` before it |
| `Lifecycle.DisconnectTwice` | lib/torchat/session/buddy.rb:165-186 | a first `disconnect` fires `:disconnection` exactly once and leaves the buddy offline; a second does nothing; on a buddy that is only connecting, `disconnect` does nothing |
| `Lifecycle.DisconnectedKeepsTransports` | lib/torchat/session/buddy.rb:176-186 | calling `disconnected` directly resets the flags and fires once, but closes no transport and keeps both |
| `Lifecycle.TransitionsAreIdempotent` | lib/torchat/session/buddy.rb:122-163 | a second `connect`, `connected` or `verified` changes nothing and emits nothing, also after a first `connected` that raised |
| `Lifecycle.ConnectedPingsOnce` | lib/torchat/session/buddy.rb:140-151 | the first `connected` sends exactly one forced ping with the own address, sets `pinged` and fires `:connection` exactly once |
| `Dispatch.Empty` | lib/torchat/server.rb:30 | a new table lists no handler under any tag |
| `Dispatch.On` | lib/torchat/session.rb:110-112 | `on` appends the handler to its tag's list and leaves every other tag's list alone |
| `Dispatch.OnAllAppends` | lib/torchat/server.rb:48-50 | registering several handlers in turn appends exactly those handlers, in order, duplicates kept |
| `Session.New` | lib/torchat/session.rb:31-64 | a new session has an empty registry and exactly one default handler under each of `:verification`, `:profile_name`, `:profile_text`, `:profile_avatar_alpha` and `:profile_avatar`, and none under any other tag |
| `Session.Address` | lib/torchat/session.rb:66-72 | the own address is the normalised configured address plus ".onion", and normalising it gives the id back |
| `Session.ClientOf` | lib/torchat/session.rb:74-76 | the client name is the configured one, or "ruby-torchat" when none is set |
| `Session.VersionOf` | lib/torchat/session.rb:78-80 | the version is the configured one, or the library's release when none is set |
| `Session.SendAll` | lib/torchat/session.rb:38-45 | the packets go out in order through the buddy's outgoing transport; without one, the first send raises and nothing goes out |
| `Session.Invoke` | lib/torchat/session.rb:38-61 | user blocks never raise and never change their arguments; only the profile handler and user blocks produce effects; no handler fires an event |
| `Session.Run` | lib/torchat/session.rb:114-124 | an empty chain does nothing; a chain of plain blocks never raises and calls each block once, in order, with the same arguments; no chain fires an event |
| `Session.RunSnoc` | lib/torchat/session.rb:120-124 | running a chain with one more handler at the end runs the chain, then that handler |
| `Session.On` | lib/torchat/session.rb:110-112 | `on` appends to the tag's list and changes nothing else in the session |
| `Session.Received` | lib/torchat/session.rb:114-118 | receiving is firing the packet's type with `(packet, packet.from)`; a type with no handlers changes nothing and sends nothing; a type with only plain blocks calls each once, in order, and never raises |
| `Session.Fire` | lib/torchat/session.rb:120-124 | an event with no handlers does nothing; a first handler that raises is the only one that runs; plain blocks are each called once, in registration order, with the given arguments |
| `Session.FireAfterOn` | lib/torchat/session.rb:110-124 | a handler added with `on` runs after every handler registered earlier under that tag; firing other tags is unaffected |
| `Session.RunOnOtherSession` | lib/torchat/session.rb:38-61 | handlers read only the client name, version and release, so a chain runs the same in two sessions that agree on these |
| `Session.OnBehalfOf` | lib/torchat/session/buddy.rb:73-79 | `Buddy#on` registers one filtered block on the session under that tag |
| `Session.ScopedBlockFiltersByPeer` | lib/torchat/session/buddy.rb:73-79 | such a block is called exactly when the first argument is that buddy or a packet from it |
| `Session.DefaultVerificationHandshake` | lib/torchat/session.rb:38-45 | on `:verification` a new session sends `:client "ruby-torchat"`, `:version`, `:add_me` and `:status :available` in that order; a buddy without an outgoing transport gets nothing and the send raises |
| `Session.DefaultProfileHandlers` | lib/torchat/session.rb:47-61 | inbound `profile_name` and `profile_text` set the sender's name and description; the two avatar packets set its rgb and alpha buffers; nothing else changes and nothing is sent; a packet type with no default handler does nothing |
| `Session.InboundProfile` | lib/torchat/session.rb:47-61 | the same holds in any session whose profile tags hold just the default handlers |
| `Session.Push` | lib/torchat/session.rb:92-94 | every registered buddy gets exactly one copy of the packet, in registry order; the first buddy without an outgoing transport raises and the push stops there |
| `Session.SetName` | lib/torchat/session.rb:89-95 | `name=` stores the name, then sends exactly one `:profile_name` with it to each buddy registered at that moment, in registry order; the first buddy without an outgoing transport raises, after the buddies before it got theirs |
| `Session.SetDescription` | lib/torchat/session.rb:97-104 | `description=` does the same with `:profile_text` |
| `Session.AddBuddy` | lib/torchat/session.rb:106-108 | an invalid address raises and changes nothing; a valid one requests one dial; if the address rebuilt from its bare id is also valid, the buddy the constructor built (connecting, with no transport until the connect block runs) is filed under that id and every other entry is left alone, and otherwise `<<` raises and the registry is unchanged |
| `Session.Deliver` | lib/torchat/session.rb:120-124 | every event in a trace is replaced by what its handlers do, in order; the result holds no event; a trace without events passes through unchanged |
| `Session.DeliverAppend` | lib/torchat/session.rb:120-124 | delivering two traces back to back is delivering the first, then the second unless the first raised |
| `Session.Signal` | lib/torchat/session/buddy.rb:122-186 | a transition on a registered buddy: the state it leaves, even after a raise, is what the registry holds under that key afterwards; no other key and nothing else in the session changes; its events run through the session's handlers; an unknown key changes nothing |
| `Session.ReceivedFrom` | lib/torchat/session.rb:114-118 | a packet from a registered buddy: its handlers run as in `received`, and what they stored on the sender is on the registered buddy afterwards; no other key changes; an unknown key changes nothing |
| `Session.DeliverEffectThenEvent` | lib/torchat/session.rb:120-124 | an effect followed by an event delivers the effect, then that event's handlers |
| `Session.DeliverEvent` | lib/torchat/session.rb:120-124 | a lone event delivers exactly its handlers' effects |
| `Handshake.AddedPeerIsConnecting` | lib/torchat/session.rb:106-108 | a buddy added to a fresh session is registered under its bare id, connecting, not connected or verified, has no transport (the connect block has not yet been delivered), reads offline, and one dial is requested |
| `Handshake.ConnectionReachesNoDefaultHandler` | lib/torchat/session/buddy.rb:140-151 | with only the default handlers, the connect block and `connected` produce just one forced ping with the own address; afterwards the buddy reads as its stored status, which is still empty |
| `Handshake.ConnectionReachesNoHandler` | lib/torchat/session/buddy.rb:127-151 | the same in any session with no handler for `:outgoing` or `:connection` |
| `Handshake.ProfileSentOnce` | lib/torchat/session/buddy.rb:155-163 | the same in any session whose only `:verification` handler is the profile push |
| `Handshake.VerificationSendsProfileOnce` | lib/torchat/session/buddy.rb:155-163 | `verified` notifies the transport, then the session sends client, version, add_me and status available once each; a second `verified` sends nothing |
| `Handshake.FromAddBuddyToVerified` | lib/torchat/session.rb:38-45 | end to end: add by address, dial, connect, verify; the buddy gets one ping and then the profile bundle, exactly once |
| `Handshake.NameReachesConnectedPeer` | lib/torchat/session.rb:89-95 | through the registry: after `add_buddy`, the connect block with transport `t` and `connected`, the registered buddy is connected over `t`; `name=` then sends exactly one `:profile_name`, over `t` |
| `Handshake.SoleConnectThenName` | lib/torchat/session.rb:89-95 | the same chain in any session whose registry holds only that buddy and which has no `:outgoing` or `:connection` handler |
| `Handshake.SoleConnect` | lib/torchat/session/buddy.rb:127-151 | the connect block and `connected`, delivered to the only registered buddy, leave it connected over the new transport, with one forced ping and nothing else |
| `Handshake.SoleDial` | lib/torchat/session/buddy.rb:127-135 | the connect block, with no `:outgoing` handler, stores the adopted buddy in the registry and emits nothing |
| `Handshake.SoleUp` | lib/torchat/session/buddy.rb:140-151 | `connected`, with no `:connection` handler, stores the connected buddy in the registry and sends one forced ping |
| `Handshake.NameReceivedIsRegistered` | lib/torchat/session.rb:47-49 | an inbound `:profile_name` from a registered buddy sets that name on the registered buddy and nothing else about it; the intended lookup by that name then finds that buddy; the lookup as written finds it too, as the buddy itself on a key hit or as its `[key, buddy]` pair when only the name scan matches |
| `Server.New` | lib/torchat/server.rb:27-35 | a new server has an empty registry and no handler under any tag |
| `Server.On` | lib/torchat/server.rb:48-50 | `on` appends to the tag's list and changes nothing else |
| `Server.Calls` | lib/torchat/server.rb:53-55 | each block is called once with the same arguments, in list order |
| `Server.Received` | lib/torchat/server.rb:52-56 | the blocks registered for the packet's type are called in order with `(packet, packet.from)` |
| `Server.Fire` | lib/torchat/server.rb:58-62 | the blocks registered for the name are called in order with the given arguments |
| `Server.FreshServerIsSilent` | lib/torchat/server.rb:27-35 | a fresh server reacts to no packet and to no event |
| `Server.DispatchFollowsRegistration` | lib/torchat/server.rb:48-62 | after registering blocks under a tag, firing it or receiving a packet of that type calls exactly those blocks, in registration order, duplicates included |
| `Server.AddBuddy` | lib/torchat/server.rb:44-46 | an invalid address raises and changes nothing; a valid one requests one dial; if the address rebuilt from its bare id is also valid, the buddy the constructor built is filed under that id and every other entry is left alone, and otherwise `<<` raises and the server is unchanged |
| `Server.AddBuddyThenLookup` | lib/torchat/server.rb:44-46 | after `add_buddy`, looking up the bare id finds exactly the constructor's buddy, and so does looking up the full address unless that address was already a key |
| `Registry.Get` | lib/torchat/server/buddies.rb:26 | the plain hash read finds a value exactly when the key is present, and the value is stored under that key |
| `Registry.Put` | lib/torchat/server/buddies.rb:36 | the plain hash write makes the key read as the new buddy and leaves every other key's value alone; a new key goes at the end, an existing key keeps its place |
| `Registry.PutKeys` | lib/torchat/server/buddies.rb:36 | the write adds exactly its key to the key set |
| `Registry.PutDistinct` | lib/torchat/server/buddies.rb:36 | the write keeps keys unique |
| `Registry.Find` | lib/torchat/server/buddies.rb:26 | the scan yields the first entry, in insertion order, whose buddy has the name as alias or name; it yields nothing exactly when no buddy answers to it |
| `Registry.LookupAsWritten` | lib/torchat/server/buddies.rb:25-27 | as written, an exact key hit returns that key's buddy, otherwise a normalised key hit returns that key's buddy; a buddy it returns is the one the intended lookup returns; it misses exactly on a total miss, and when only the scan hits it returns the `[key, buddy]` pair |
| `Registry.ScanHitIsPair` | lib/torchat/server/buddies.rb:26 | whenever only the scan matches, the code as written returns a pair and never the buddy itself |
| `Registry.Lookup` | lib/torchat/server/buddies.rb:25-27 | the intended lookup: the exact key wins, then the normalised key, then the scan's buddy; it returns nil, without raising, exactly on a total miss; when only the scan matches, it returns the buddy of the first entry that answers to the name |
| `Registry.InsertAsWritten` | lib/torchat/server/buddies.rb:29-37 | as written, insertion raises exactly when the key is not an address, whether or not a buddy answers to it |
| `Registry.Insert` | lib/torchat/server/buddies.rb:29-37 | the intended insert: a key that is not an address and names no buddy raises; otherwise the buddy is stored under the normalised key and every other key's value is unchanged |
| `Registry.InsertKeepsKeysDistinct` | lib/torchat/server/buddies.rb:34-36 | a successful insert keeps keys unique and adds only its key |
| `Registry.Append` | lib/torchat/server/buddies.rb:39-41 | `<<`, which goes through the insert as written, raises exactly when the buddy's address is not an address; otherwise it stores the buddy under its normalised address, which for a buddy built from a break-free id is that id |
| `Registry.AppendAgreesWithInsert` | lib/torchat/server/buddies.rb:29-41 | for an address key, the insert as written and the intended insert agree, so `<<` is unaffected by the rename finding |
| `Registry.AppendThenLookup` | lib/torchat/server/buddies.rb:25-41 | after `<< b` with `b.id == "foo"`, looking up "foo" and "foo.onion" both return `b`, in the code as written as well as in the intended lookup, and every other key is unchanged |
| `Registry.RenameReplacesMatchedEntry` | lib/torchat/server/buddies.rb:30-36 | the intended rename: inserting under a buddy's alias replaces that buddy's entry, and the number of entries stays the same |
| `Registry.AliasInsertFailsAsWritten` | lib/torchat/server/buddies.rb:30-32 | counterexample: with a buddy aliased "bob", inserting under "bob" raises as written but succeeds as intended |

## Findings

| source | as written | input that shows it | evidently intended | confidence | as-written member | corrected member |
|---|---|---|---|---|---|---|
| lib/torchat/server/buddies.rb:26 | the third alternative of `Buddies#[]` is `Hash#find`, which yields a `[key, buddy]` pair | a registry holding `"abc" => b` with `b.alias == "bob"`; looking up `"bob"` returns `["abc", b]`, an Array, so a caller that goes on to call a buddy method on the result raises NoMethodError | return the matching buddy | high, not executed | `Registry.LookupAsWritten`, `Registry.ScanHitIsPair` | `Registry.Lookup` |
| lib/torchat/server/buddies.rb:30-32 | for a key that is not an address, `find { … }.address` calls `address` on nil (no match) or on the `[key, buddy]` pair (a match), so this path always raises | the same registry; `buddies["bob"] = c` raises NoMethodError although "bob" names `b` | resolve the key to the matching buddy's address, and raise only when nothing matches | medium, not executed | `Registry.InsertAsWritten`, `Registry.AliasInsertFailsAsWritten` | `Registry.Insert`, `Registry.RenameReplacesMatchedEntry` |

## Where the apparently intended behaviour and the code differ

The model follows the code in each of these cases.

- One would expect a buddy to read as offline until the handshake completes with `verified`.
  In the code, `status` (buddy.rb:69-71) returns the stored status as soon as the buddy is
  connected. Nothing has been stored at that point, so it returns nil
  (`Handshake.ConnectionReachesNoDefaultHandler`).
- `verified` is meant for a connected buddy, once its identity is established. The code does
  not check this: `verified` (buddy.rb:155-163) sets the flag either way (`Buddy.Verified`).
- `disconnected` (buddy.rb:176-186), called when the connection drops, would be expected to
  release both transports through its nested `disconnect`. It does not: it clears `connected`
  before `disconnect` runs, so that call returns early and both transports stay held
  (`Lifecycle.DisconnectedKeepsTransports`).
- `connected` on a buddy without an outgoing transport sets the flags and then raises from
  `send_packet!`. The model keeps both the raise and the changed flags.

## Left out

- `Avatar#to_image` (buddy.rb:29-41) decodes the avatar with RMagick, a foreign library.
- The reactor work inside `connect` (buddy.rb:127-135) is left out: `EM.connect`, the
  transport's `@session` and its connect timeout. The dial is the effect `DialRequested`, and
  the block `EM.connect` runs on the new connection is `Buddy.AdoptDialed`.
- Buddy.AdoptDialed: the source runs the connect block synchronously inside `connect`, as soon
  as `EM.connect` creates the pending Outgoing; the model delivers it as a later signal
  (`Lifecycle.Opened`). A model buddy can therefore be connecting with no outgoing transport,
  which the source never hands back to its caller: after `Session.AddBuddy` the buddy has no
  outgoing transport yet, and a `name=` at that point raises `PrematureSend` in the model where
  the source queues the packet on the pending Outgoing.
- `start` and `stop` binding and unbinding a socket, and `set_timeout`, `set_interval` and
  `clear_timeout`, are left out. They are reactor I/O. Only the host and port `start` resolves
  are modelled (`Settings.ListenEndpoint`).
- `Protocol.valid_address?` is the parameter `isAddress`; torchat/protocol is not part of this
  model.
- The `Incoming` and `Outgoing` transports and `Packet` are opaque. A transport is a number
  plus its owner, held by value in each buddy. Sharing one transport object between two buddies
  is not modelled: in the source a second buddy's `own!` of the same object rewrites the first
  holder's `owner`, so `Lifecycle.DriveKeepsCoherent` speaks of one buddy in isolation. Its queueing until verification is not modelled: the trace only records
  whether a packet took the normal or the forced path.
- `Torchat.version` comes from torchat/version, which is not part of this model. It is the
  session's `release` field.
- torchat/session/buddies, the registry class a Session uses, is not part of this model. The
  Session's registry is modelled with the logic of `Server::Buddies`. `name=` and
  `description=` visit the registered buddies in insertion order.
- torchat/server/buddy, the buddy class a Server builds, is not part of this model.
  `Server.AddBuddy` builds its buddy with the constructor from buddy.rb.
- `Buddy#port` (the constant 11009), `tor`'s struct wrapper and `inspect` are left out. They
  are plain constants or formatting.
- `Torchat.debug` and `new_cookie` (utils.rb) are left out. They are stderr logging and
  SecureRandom.
- lib/torchat.rb is left out: it loads YAML and bootstraps the process. Its `send_packet_to`
  looks up through torchat/session/buddies, which is not part of this model.
- The `===` test in the alias scan is modelled as string equality. Matching against a Regexp is
  left out.
- Ruby object identity, used by `Buddy#on` to compare a buddy with `self`, is modelled as
  equality of buddy ids.
- The buddy's `alias` is read by the registry scan, but buddy.rb declares no `alias` reader. It
  is an optional field that nothing in the model sets.
- User blocks are opaque. The model records each call, but a block never raises and never
  changes the buddy. What a real block does is outside these files.
- Event arguments are limited to three shapes: a packet with its sender, a buddy, or a
  transport. Other argument lists passed to `fire` are left out.
- The `yield self if block_given?` in both constructors is modelled as later calls to `On`.
- Reading a missing tag from the Ruby callback table stores an empty list under that tag. This
  cannot be observed through `on`, `received` or `fire`, so it is left out.
- `String#to_i` is modelled on an optional sign followed by digits. Leading whitespace and
  underscores between digits are not modelled.
- `Settings.Proxy` is the plain read behind `tor`. Only its use with a decimal port text is
  stated as a property (`Settings.ProxyOnConfiguredText`).
- Transitions and packets reach a registered buddy one at a time, through `Session.Signal` and
  `Session.ReceivedFrom`. The reactor that interleaves them is left out.

=== FILE: buddy.dfy ===
/**
 * The peer ("buddy") connection state machine. Every transition is a pure function from the
 * peer's state to a Step: the new state, the trace of what the transition did to the outside
 * world (packets handed to a transport, events fired, dials requested) and the fault it raised,
 * if any. When a transition raises, `peer` is the state at the moment of the raise.
 */
module Buddy {
  import opened Common
  import opened Packets
  import Onion
  import Settings

  /** An Incoming or Outgoing connection object; `owner` is its back-reference to a peer id. */
  datatype Transport = Transport(tid: nat, owner: Option<string>)

  /** What `own!` may be handed: an Incoming, an Outgoing, or anything else (nil included). */
  datatype Offer = NoOffer | OfferIncoming(incoming: Transport) | OfferOutgoing(outgoing: Transport)

  datatype Avatar = Avatar(rgb: Option<Bytes>, alpha: Option<Bytes>)

  datatype ClientInfo = ClientInfo(name: Option<string>, version: Option<string>)

  /**
   * One remote identity. `alias` is read by the registry's name scan; nothing in the peer sets it.
   * `storedStatus` is the value behind the `status=` writer.
   */
  datatype Peer = Peer(
    id: string,
    address: string,
    incoming: Option<Transport>,
    outgoing: Option<Transport>,
    connecting: bool,
    connected: bool,
    verified: bool,
    ready: bool,
    pinged: bool,
    storedStatus: Option<Status>,
    name: Option<string>,
    description: Option<string>,
    alias: Option<string>,
    avatar: Avatar,
    client: ClientInfo)

  /** The arguments an event handler receives. */
  datatype Args =
    | FromPacket(packet: Packet, from: Peer)   // `received`: (packet, packet.from)
    | OfPeer(peer: Peer)                       // `fire name, buddy`
    | OfTransport(transport: Transport)        // `fire :outgoing, outgoing`

  /** Something a transition or handler did outside the peer's own state. */
  datatype Effect =
    | Sent(via: nat, packet: Packet)          // Outgoing#send_packet, held back until verified
    | SentForced(via: nat, packet: Packet)    // Outgoing#send_packet!
    | VerificationCompleted(via: nat)
    | ClosedAfterWriting(via: nat)
    | DialRequested(proxy: Settings.Endpoint)
    | Fired(tag: Tag, args: Args)
    | Invoked(hid: nat, args: Args)            // an opaque user block was called

  datatype Step = Step(peer: Peer, trace: seq<Effect>, fault: Option<Fault>)

  function TidOf(t: Option<Transport>): Option<nat>
  {
    match t
    case Some(x) => Some(x.tid)
    case None => None
  }

  /** Every held transport points back at this peer. */
  predicate Owned(p: Peer)
  {
    && (p.incoming.Some? ==> p.incoming.value.owner == Some(p.id))
    && (p.outgoing.Some? ==> p.outgoing.value.owner == Some(p.id))
  }

  /** `connecting` and `connected` are never both set, and every held transport knows its owner. */
  predicate Coherent(p: Peer)
  {
    !(p.connecting && p.connected) && Owned(p)
  }

  /** The status observers see: the stored one while connected, `:offline` otherwise. */
  function ObservedStatus(p: Peer): Option<Status>
  {
    if p.connected then p.storedStatus else Some(Offline)
  }

  /**
   * Whatever was stored, a peer that is not connected reads as offline; a connected one reads as
   * exactly what was stored, nil included.
   */
  lemma OfflineUnlessConnected(p: Peer, stored: Option<Status>)
    ensures !p.connected ==> ObservedStatus(p.(storedStatus := stored)) == Some(Offline)
    ensures p.connected ==> ObservedStatus(p.(storedStatus := stored)) == stored
  {
  }

  function Claim(t: Option<Transport>, id: string): Option<Transport>
  {
    match t
    case Some(x) => Some(x.(owner := Some(id)))
    case None => None
  }

  /**
   * `own!`: an Incoming fills the incoming slot, an Outgoing the outgoing slot, anything else
   * changes neither; then every held transport gets this peer as owner.
   */
  function Own(p: Peer, what: Offer): (r: Peer)
    ensures Owned(r)
    ensures TidOf(r.incoming) == if what.OfferIncoming? then Some(what.incoming.tid) else TidOf(p.incoming)
    ensures TidOf(r.outgoing) == if what.OfferOutgoing? then Some(what.outgoing.tid) else TidOf(p.outgoing)
    ensures r.(incoming := p.incoming, outgoing := p.outgoing) == p
  {
    var placed := match what
      case OfferIncoming(t) => p.(incoming := Some(t))
      case OfferOutgoing(t) => p.(outgoing := Some(t))
      case NoOffer => p;
    placed.(incoming := Claim(placed.incoming, p.id), outgoing := Claim(placed.outgoing, p.id))
  }

  /** A second `own!` of the same thing changes nothing. */
  lemma OwnIdempotent(p: Peer, what: Offer)
    ensures Own(Own(p, what), what) == Own(p, what)
  {
  }

  /**
   * The transport of one kind (Incoming when `wantIncoming`) that two `own!` calls in a row leave
   * in its slot of a blank peer: the later offer of that kind wins.
   */
  function LastOffered(first: Offer, second: Offer, wantIncoming: bool): Option<nat>
  {
    if wantIncoming then
      if second.OfferIncoming? then Some(second.incoming.tid)
      else if first.OfferIncoming? then Some(first.incoming.tid)
      else None
    else
      if second.OfferOutgoing? then Some(second.outgoing.tid)
      else if first.OfferOutgoing? then Some(first.outgoing.tid)
      else None
  }

  predicate SuppliesOutgoing(incoming: Offer, outgoing: Offer)
  {
    incoming.OfferOutgoing? || outgoing.OfferOutgoing?
  }

  /** A peer as it stands before its transports are adopted: every flag unset, nothing known. */
  function Blank(id: string): (r: Peer)
    ensures r.id == id && r.address == Onion.AddressOf(id)
    ensures r.incoming.None? && r.outgoing.None?
    ensures !r.connecting && !r.connected && !r.verified && !r.ready && !r.pinged
    ensures r.storedStatus.None? && r.name.None? && r.description.None? && r.alias.None?
    ensures r.avatar == Avatar(None, None) && r.client == ClientInfo(None, None)
  {
    Peer(id, Onion.AddressOf(id), None, None, false, false, false, false, false, None,
         None, None, None, Avatar(None, None), ClientInfo(None, None))
  }

  /**
   * `Buddy.new(session, id, incoming, outgoing)`: rejects an id `isAddress` refuses; otherwise
   * stores the bare id and its address, adopts both arguments and dials out exactly when no
   * outgoing transport was adopted.
   */
  function New(isAddress: string -> bool, proxy: Settings.Endpoint, rawId: string,
               incoming: Offer, outgoing: Offer): (r: Result<Step>)
    ensures r.Err? <==> !isAddress(rawId)
    ensures r.Err? ==> r.fault == InvalidAddress
    ensures r.Ok? ==> r.value.peer.id == Onion.Normalize(rawId)
    ensures r.Ok? ==> r.value.peer.address == r.value.peer.id + Onion.Suffix
    ensures r.Ok? ==> r.value.fault == None && Coherent(r.value.peer)
    ensures r.Ok? ==> r.value.peer.(incoming := None, outgoing := None, connecting := false) == Blank(r.value.peer.id)
    ensures r.Ok? ==> TidOf(r.value.peer.incoming) == LastOffered(incoming, outgoing, true)
    ensures r.Ok? ==> TidOf(r.value.peer.outgoing) == LastOffered(incoming, outgoing, false)
    ensures r.Ok? ==> (r.value.peer.outgoing.None? <==> !SuppliesOutgoing(incoming, outgoing))
    ensures r.Ok? ==> r.value.peer.connecting == !SuppliesOutgoing(incoming, outgoing)
    ensures r.Ok? ==> r.value.trace == if SuppliesOutgoing(incoming, outgoing) then [] else [DialRequested(proxy)]
  {
    if !isAddress(rawId) then Err(InvalidAddress)
    else
      var adopted := Own(Own(Blank(Onion.Normalize(rawId)), incoming), outgoing);
      if adopted.outgoing.Some? then Ok(Step(adopted, [], None))
      else Ok(Connect(adopted, proxy))
  }

  /**
   * `connect`: does nothing while connecting or connected; otherwise marks the peer connecting
   * and asks for one dial through the proxy, changing nothing else.
   */
  function Connect(p: Peer, proxy: Settings.Endpoint): (r: Step)
    ensures r.fault == None
    ensures p.connecting || p.connected ==> r == Step(p, [], None)
    ensures !(p.connecting || p.connected) ==> r.peer.connecting && r.peer.(connecting := false) == p
    ensures !(p.connecting || p.connected) ==> r.trace == [DialRequested(proxy)]
    ensures Coherent(p) ==> Coherent(r.peer)
  {
    if p.connecting || p.connected then Step(p, [], None)
    else Step(p.(connecting := true), [DialRequested(proxy)], None)
  }

  /** The block `EM.connect` runs on the new connection: adopt the Outgoing, then fire `:outgoing` with it. */
  function AdoptDialed(p: Peer, t: Transport): (r: Step)
    ensures r.fault == None && Owned(r.peer)
    ensures TidOf(r.peer.outgoing) == Some(t.tid) && r.peer.incoming == Claim(p.incoming, p.id)
    ensures r.trace == [Fired("outgoing", OfTransport(r.peer.outgoing.value))]
    ensures r.peer.(incoming := p.incoming, outgoing := p.outgoing) == p
    ensures Coherent(p) ==> Coherent(r.peer)
  {
    var q := Own(p, OfferOutgoing(t));
    Step(q, [Fired("outgoing", OfTransport(q.outgoing.value))], None)
  }

  /** `send_packet`: hands the packet to the outgoing transport, or raises when there is none. */
  function SendPacket(p: Peer, packet: Packet): (r: Result<Effect>)
    ensures r.Err? <==> p.outgoing.None?
    ensures r.Err? ==> r.fault == PrematureSend
    ensures r.Ok? ==> r.value == Sent(p.outgoing.value.tid, packet)
  {
    match p.outgoing
    case None => Err(PrematureSend)
    case Some(t) => Ok(Sent(t.tid, packet))
  }

  /** `send_packet!`: as `send_packet`, through the transport's verification-bypassing path. */
  function SendPacketForced(p: Peer, packet: Packet): (r: Result<Effect>)
    ensures r.Err? <==> p.outgoing.None?
    ensures r.Err? ==> r.fault == PrematureSend
    ensures r.Ok? ==> r.value == SentForced(p.outgoing.value.tid, packet)
  {
    match p.outgoing
    case None => Err(PrematureSend)
    case Some(t) => Ok(SentForced(t.tid, packet))
  }

  /** `send_message`: a `:message` packet through `send_packet`. */
  function SendMessage(p: Peer, text: string): (r: Result<Effect>)
    ensures r.Err? <==> p.outgoing.None?
    ensures r.Ok? ==> r.value == Sent(p.outgoing.value.tid, Message(text))
  {
    SendPacket(p, Message(text))
  }

  /** `ping!`. */
  function Pinged(p: Peer): (r: Peer)
    ensures r.pinged && r.(pinged := p.pinged) == p
  {
    p.(pinged := true)
  }

  /** `pong!`. */
  function Ponged(p: Peer): (r: Peer)
    ensures !r.pinged && r.(pinged := p.pinged) == p
  {
    p.(pinged := false)
  }

  /** `ready!`. */
  function MarkReady(p: Peer): (r: Peer)
    ensures r.ready && r.(ready := p.ready) == p
  {
    p.(ready := true)
  }

  /** A pong undoes a ping on a peer that was not pinged, and a ping undoes a pong on one that was. */
  lemma PingPongRoundTrip(p: Peer)
    ensures !p.pinged ==> Ponged(Pinged(p)) == p
    ensures p.pinged ==> Pinged(Ponged(p)) == p
  {
  }

  /**
   * `connected`: a no-op on a connected peer. Otherwise it clears `connecting`, sets `connected`,
   * forces one `:ping` carrying the own address, sets `pinged` and fires `:connection` once.
   * Without an outgoing transport the flags are set and then the forced send raises.
   */
  function Connected(p: Peer, ownAddress: string): (r: Step)
    ensures p.connected ==> r == Step(p, [], None)
    ensures !p.connected ==> r.peer.connected && !r.peer.connecting
    ensures !p.connected && p.outgoing.None? ==>
      r.fault == Some(PrematureSend) && r.trace == [] && r.peer == p.(connecting := false, connected := true)
    ensures !p.connected && p.outgoing.Some? ==>
      && r.fault == None
      && r.peer == p.(connecting := false, connected := true, pinged := true)
      && r.trace == [SentForced(p.outgoing.value.tid, Ping(ownAddress)), Fired("connection", OfPeer(r.peer))]
    ensures Coherent(p) ==> Coherent(r.peer)
  {
    if p.connected then Step(p, [], None)
    else
      var q := p.(connecting := false, connected := true);
      match SendPacketForced(q, Ping(ownAddress))
      case Err(f) => Step(q, [], Some(f))
      case Ok(ping) =>
        var pinged := Pinged(q);
        Step(pinged, [ping, Fired("connection", OfPeer(pinged))], None)
  }

  /**
   * `verified`: a no-op on a verified peer. Otherwise it sets `verified` (whether or not the peer is
   * connected), tells the outgoing transport that verification completed and fires
   * `:verification` once; without an outgoing transport the call on nil raises after the flag is set.
   */
  function Verified(p: Peer): (r: Step)
    ensures p.verified ==> r == Step(p, [], None)
    ensures !p.verified ==> r.peer == p.(verified := true)
    ensures !p.verified && p.outgoing.None? ==> r.fault == Some(NoMethod) && r.trace == []
    ensures !p.verified && p.outgoing.Some? ==>
      r.fault == None
      && r.trace == [VerificationCompleted(p.outgoing.value.tid), Fired("verification", OfPeer(r.peer))]
    ensures Coherent(p) ==> Coherent(r.peer)
  {
    if p.verified then Step(p, [], None)
    else
      var q := p.(verified := true);
      match q.outgoing
      case None => Step(q, [], Some(NoMethod))
      case Some(t) => Step(q, [VerificationCompleted(t.tid), Fired("verification", OfPeer(q))], None)
  }

  function CloseIfHeld(t: Option<Transport>): seq<Effect>
  {
    match t
    case Some(x) => [ClosedAfterWriting(x.tid)]
    case None => []
  }

  /** The state `disconnected` leaves behind: the four flags reset, everything else kept. */
  function Reset(p: Peer): Peer
  {
    p.(verified := false, ready := false, connecting := false, connected := false)
  }

  /**
   * `disconnect`: a no-op unless connected (so also on a peer that is only connecting). Otherwise
   * it closes each held transport after writing, drops both, and runs `disconnected`, which
   * resets the flags and fires `:disconnection` once.
   */
  function Disconnect(p: Peer): (r: Step)
    decreases if p.connected then 2 else 0
    ensures !p.connected ==> r == Step(p, [], None)
    ensures p.connected ==>
      && r.fault == None
      && r.peer == Reset(p).(incoming := None, outgoing := None)
      && r.trace == CloseIfHeld(p.incoming) + CloseIfHeld(p.outgoing) + [Fired("disconnection", OfPeer(r.peer))]
  {
    if !p.connected then Step(p, [], None)
    else
      var closes := CloseIfHeld(p.incoming) + CloseIfHeld(p.outgoing);
      var rest := Disconnected(p.(incoming := None, outgoing := None));
      Step(rest.peer, closes + rest.trace, rest.fault)
  }

  /**
   * `disconnected`: a no-op unless connected. Otherwise it resets the flags, then calls
   * `disconnect`, which now sees a disconnected peer and returns at once, so the transports stay
   * held and open; finally it fires `:disconnection` once.
   */
  function Disconnected(p: Peer): (r: Step)
    decreases if p.connected then 1 else 0
    ensures !p.connected ==> r == Step(p, [], None)
    ensures p.connected ==>
      && r.fault == None
      && r.peer == Reset(p)
      && r.peer.incoming == p.incoming && r.peer.outgoing == p.outgoing
      && r.trace == [Fired("disconnection", OfPeer(r.peer))]
  {
    if !p.connected then Step(p, [], None)
    else
      var rest := Disconnect(Reset(p));
      if rest.fault.Some? then rest
      else Step(rest.peer, rest.trace + [Fired("disconnection", OfPeer(rest.peer))], None)
  }

  /** The identity a handler's first argument refers to: the peer itself, or a packet's sender. */
  function Subject(args: Args): Option<string>
  {
    match args
    case FromPacket(_, from) => Some(from.id)
    case OfPeer(b) => Some(b.id)
    case OfTransport(_) => None
  }
}

=== FILE: common.dfy ===
/** Failure-carrying values shared by every module of the model. */
module Common {

  /** A value that may be absent; Ruby's `nil` becomes `None`. */
  datatype Option<+T> = None | Some(value: T)

  /** The ways an operation of the core can raise. */
  datatype Fault =
    | InvalidAddress   // ArgumentError from the peer constructor
    | PrematureSend    // "you cannot send packets yet": no outgoing transport held
    | NoMethod         // a method called on nil or on an object that lacks it

  /** Either the value an operation returns or the fault it raises. */
  datatype Result<+T> = Ok(value: T) | Err(fault: Fault)
}

=== FILE: dispatch.dfy ===
/**
 * The callback table shared by Session and Server: a map from tag to the ordered list of
 * handlers registered under it. A missing tag reads as an empty list, as the Ruby table's
 * default block does (the empty entry it stores on a read is not observable here).
 */
module Dispatch {
  import opened Packets

  type Table<H> = map<Tag, seq<H>>

  function Empty<H>(): (t: Table<H>)
    ensures forall tag :: HandlersFor(t, tag) == []
  {
    map[]
  }

  /** `@callbacks[tag]`. */
  function HandlersFor<H>(t: Table<H>, tag: Tag): seq<H>
  {
    if tag in t then t[tag] else []
  }

  /** `on(tag) { … }`: appends the handler under its tag; every other tag keeps its list. */
  function On<H>(t: Table<H>, tag: Tag, h: H): (r: Table<H>)
    ensures HandlersFor(r, tag) == HandlersFor(t, tag) + [h]
    ensures forall other :: other != tag ==> HandlersFor(r, other) == HandlersFor(t, other)
  {
    t[tag := HandlersFor(t, tag) + [h]]
  }

  /** Registers `hs` under `tag`, one `on` call after another. */
  function OnAll<H>(t: Table<H>, tag: Tag, hs: seq<H>): Table<H>
    decreases |hs|
  {
    if |hs| == 0 then t else OnAll(On(t, tag, hs[0]), tag, hs[1..])
  }

  /**
   * Registration order is invocation order and duplicates are kept: after registering `hs` under
   * `tag`, its list is the old list followed by exactly `hs`; other tags are untouched.
   */
  lemma {:induction false} OnAllAppends<H>(t: Table<H>, tag: Tag, hs: seq<H>)
    ensures HandlersFor(OnAll(t, tag, hs), tag) == HandlersFor(t, tag) + hs
    ensures forall other :: other != tag ==> HandlersFor(OnAll(t, tag, hs), other) == HandlersFor(t, other)
    decreases |hs|
  {
    if |hs| > 0 {
      var t' := On(t, tag, hs[0]);
      OnAllAppends(t', tag, hs[1..]);
      assert HandlersFor(t, tag) + [hs[0]] + hs[1..] == HandlersFor(t, tag) + hs;
    }
  }
}

=== FILE: handshake.dfy ===
/**
 * The whole life of one peer in a freshly built Session: added by address, dialled, connected,
 * verified, with every fired event run through the session's default handlers.
 */
module Handshake {
  import opened Common
  import opened Packets
  import Onion
  import Settings
  import opened Buddy
  import Registry
  import Session
  import Dispatch
  import Lifecycle

  /** Adding B to a fresh session registers it under its bare id, connecting, and requests one dial. */
  lemma AddedPeerIsConnecting(isAddress: string -> bool, config: Settings.Config, release: string, b: string)
    requires isAddress(b) && isAddress(Onion.AddressOf(Onion.Normalize(b)))
    ensures var added := Session.AddBuddy(Session.New(config, release), isAddress, b);
      && added.fault == None
      && added.trace == [DialRequested(Settings.Proxy(config))]
      && added.session.(buddies := []) == Session.New(config, release)
      && Registry.Get(added.session.buddies, Onion.Normalize(b)).Some?
      && var p := Registry.Get(added.session.buddies, Onion.Normalize(b)).value;
      && p.connecting && !p.connected && !p.verified && p.outgoing.None? && p.storedStatus.None?
      && ObservedStatus(p) == Some(Offline)
      && added.session.buddies == [Registry.Entry(Onion.Normalize(b), p)]
  {
    var step := Buddy.New(isAddress, Settings.Proxy(config), b, NoOffer, NoOffer).value;
    Onion.NormalizeAddressOf(step.peer.id);
    assert Registry.Append(isAddress, [], step.peer) == Ok(Registry.Put([], step.peer.id, step.peer));
  }

  /**
   * In a session holding only the default handlers, the connect block and `connected` reach no
   * handler: all that leaves is one forced ping carrying the own address. The peer then reads
   * as its stored status (nothing yet), not as offline.
   */
  lemma ConnectionReachesNoDefaultHandler(s: Session.State, p: Peer, t: Transport, config: Settings.Config, release: string)
    requires s.callbacks == Session.New(config, release).callbacks
    requires !p.connected && p.storedStatus.None?
    ensures var dialled := AdoptDialed(p, t);
      && Session.Deliver(s, dialled.trace) == Session.Delivery([], None)
      && var up := Connected(dialled.peer, Session.Address(s));
      && up.fault == None
      && Session.Deliver(s, up.trace) == Session.Delivery([SentForced(t.tid, Ping(Session.Address(s)))], None)
      && ObservedStatus(up.peer) == None
  {
    assert "outgoing" !in Session.DefaultTags && "connection" !in Session.DefaultTags;
    ConnectionReachesNoHandler(s, p, t);
  }

  /** The same in any session with no handler for `:outgoing` or `:connection`. */
  lemma ConnectionReachesNoHandler(s: Session.State, p: Peer, t: Transport)
    requires Dispatch.HandlersFor(s.callbacks, "outgoing") == []
    requires Dispatch.HandlersFor(s.callbacks, "connection") == []
    requires !p.connected && p.storedStatus.None?
    ensures var dialled := AdoptDialed(p, t);
      && Session.Deliver(s, dialled.trace) == Session.Delivery([], None)
      && var up := Connected(dialled.peer, Session.Address(s));
      && up.fault == None
      && Session.Deliver(s, up.trace) == Session.Delivery([SentForced(t.tid, Ping(Session.Address(s)))], None)
      && ObservedStatus(up.peer) == None
  {
    var dialled := AdoptDialed(p, t);
    Session.DeliverEvent(s, "outgoing", dialled.trace[0].args);
    var up := Connected(dialled.peer, Session.Address(s));
    Session.DeliverEffectThenEvent(s, up.trace[0], "connection", up.trace[1].args);
  }

  /**
   * `verified` on a connected peer with outgoing transport `t`, in a session holding only the
   * default handlers: the transport is told, then client name, version, `:add_me` and
   * `:status :available` go to the peer once each; a second `verified` sends nothing.
   */
  lemma VerificationSendsProfileOnce(s: Session.State, p: Peer, t: Transport, config: Settings.Config, release: string)
    requires s.callbacks == Session.New(config, release).callbacks
    requires s.client.None? && s.version.None? && s.release == release
    requires !p.verified && TidOf(p.outgoing) == Some(t.tid)
    ensures var v := Verified(p);
      && Session.Deliver(s, v.trace) == Session.Delivery(
           [VerificationCompleted(t.tid),
            Sent(t.tid, ClientName("ruby-torchat")),
            Sent(t.tid, ClientVersion(release)),
            Sent(t.tid, AddMe),
            Sent(t.tid, StatusUpdate(Available))], None)
      && Verified(v.peer) == Step(v.peer, [], None)
  {
    ProfileSentOnce(s, p, t, release);
  }

  /** The same in any session whose only `:verification` handler is the profile push. */
  lemma ProfileSentOnce(s: Session.State, p: Peer, t: Transport, release: string)
    requires Dispatch.HandlersFor(s.callbacks, "verification") == [Session.SendProfile]
    requires s.client.None? && s.version.None? && s.release == release
    requires !p.verified && TidOf(p.outgoing) == Some(t.tid)
    ensures var v := Verified(p);
      && Session.Deliver(s, v.trace) == Session.Delivery(
           [VerificationCompleted(t.tid),
            Sent(t.tid, ClientName("ruby-torchat")),
            Sent(t.tid, ClientVersion(release)),
            Sent(t.tid, AddMe),
            Sent(t.tid, StatusUpdate(Available))], None)
      && Verified(v.peer) == Step(v.peer, [], None)
  {
    var v := Verified(p);
    assert Session.Run(s, [Session.SendProfile], OfPeer(v.peer)) == Session.Invoke(s, Session.SendProfile, OfPeer(v.peer));
    Session.DeliverEffectThenEvent(s, v.trace[0], "verification", OfPeer(v.peer));
  }

  /**
   * End to end: a fresh session adds peer B, which dials; once the dial yields `t`, `connected`
   * pings with the own address, and `verified` makes the session send its profile to B exactly
   * once.
   */
  lemma FromAddBuddyToVerified(isAddress: string -> bool, config: Settings.Config, release: string,
                               b: string, t: Transport)
    requires isAddress(b) && isAddress(Onion.AddressOf(Onion.Normalize(b)))
    ensures var added := Session.AddBuddy(Session.New(config, release), isAddress, b);
      && added.fault == None
      && added.trace == [DialRequested(Settings.Proxy(config))]
      && Registry.Get(added.session.buddies, Onion.Normalize(b)).Some?
      && var up := Connected(AdoptDialed(Registry.Get(added.session.buddies, Onion.Normalize(b)).value, t).peer,
                             Session.Address(added.session));
      && Session.Deliver(added.session, up.trace)
           == Session.Delivery([SentForced(t.tid, Ping(Session.Address(added.session)))], None)
      && Session.Deliver(added.session, Verified(up.peer).trace) == Session.Delivery(
           [VerificationCompleted(t.tid),
            Sent(t.tid, ClientName("ruby-torchat")),
            Sent(t.tid, ClientVersion(release)),
            Sent(t.tid, AddMe),
            Sent(t.tid, StatusUpdate(Available))], None)
  {
    AddedPeerIsConnecting(isAddress, config, release, b);
    var s := Session.New(config, release);
    var added := Session.AddBuddy(s, isAddress, b);
    var p0 := Registry.Get(added.session.buddies, Onion.Normalize(b)).value;
    ConnectionReachesNoDefaultHandler(added.session, p0, t, config, release);
    var up := Connected(AdoptDialed(p0, t).peer, Session.Address(added.session));
    VerificationSendsProfileOnce(added.session, up.peer, t, config, release);
  }

  /**
   * Through the registry: a fresh session adds B; the connect block and then `connected`,
   * both delivered to the registered peer, leave it holding the new transport `t`. The dial
   * reaches no handler, `connected` sends one forced ping, and setting the profile name then
   * sends exactly one `:profile_name` packet, to B over `t`.
   */
  lemma NameReachesConnectedPeer(isAddress: string -> bool, config: Settings.Config, release: string,
                                 b: string, t: Transport, v: string)
    requires isAddress(b) && isAddress(Onion.AddressOf(Onion.Normalize(b)))
    ensures var k := Onion.Normalize(b);
      var added := Session.AddBuddy(Session.New(config, release), isAddress, b);
      var dialled := Session.Signal(added.session, k, Lifecycle.Opened(t));
      var up := Session.Signal(dialled.session, k, Lifecycle.Up);
      var named := Session.SetName(up.session, v);
      && dialled.fault == None && dialled.trace == []
      && up.fault == None && up.trace == [SentForced(t.tid, Ping(Session.Address(added.session)))]
      && Registry.Get(up.session.buddies, k).Some?
      && Registry.Get(up.session.buddies, k).value.connected
      && named.fault == None && named.trace == [Sent(t.tid, ProfileName(v))]
  {
    var k := Onion.Normalize(b);
    AddedPeerIsConnecting(isAddress, config, release, b);
    var added := Session.AddBuddy(Session.New(config, release), isAddress, b);
    assert "outgoing" !in Session.DefaultTags && "connection" !in Session.DefaultTags;
    SoleConnectThenName(added.session, k, Registry.Get(added.session.buddies, k).value, t, v);
  }

  /** The same chain in any session whose registry holds only `k`, with no connection handlers. */
  lemma SoleConnectThenName(s: Session.State, k: string, p: Peer, t: Transport, v: string)
    requires s.buddies == [Registry.Entry(k, p)]
    requires Dispatch.HandlersFor(s.callbacks, "outgoing") == []
    requires Dispatch.HandlersFor(s.callbacks, "connection") == []
    requires !p.connected && p.storedStatus.None?
    ensures var dialled := Session.Signal(s, k, Lifecycle.Opened(t));
      var up := Session.Signal(dialled.session, k, Lifecycle.Up);
      var named := Session.SetName(up.session, v);
      && dialled.fault == None && dialled.trace == []
      && up.fault == None && up.trace == [SentForced(t.tid, Ping(Session.Address(s)))]
      && Registry.Get(up.session.buddies, k).Some?
      && Registry.Get(up.session.buddies, k).value.connected
      && named.fault == None && named.trace == [Sent(t.tid, ProfileName(v))]
  {
    SoleConnect(s, k, p, t);
    var up := Session.Signal(Session.Signal(s, k, Lifecycle.Opened(t)).session, k, Lifecycle.Up);
    SoleEntry(up.session.buddies, k);
  }

  /**
   * In a session whose registry holds only `k` and which has no `:outgoing` or `:connection`
   * handler, the connect block and `connected` leave the sole peer connected over `t`.
   */
  lemma SoleConnect(s: Session.State, k: string, p: Peer, t: Transport)
    requires s.buddies == [Registry.Entry(k, p)]
    requires Dispatch.HandlersFor(s.callbacks, "outgoing") == []
    requires Dispatch.HandlersFor(s.callbacks, "connection") == []
    requires !p.connected && p.storedStatus.None?
    ensures var dialled := Session.Signal(s, k, Lifecycle.Opened(t));
      var up := Session.Signal(dialled.session, k, Lifecycle.Up);
      && dialled.fault == None && dialled.trace == []
      && up.fault == None && up.trace == [SentForced(t.tid, Ping(Session.Address(s)))]
      && up.session.(buddies := s.buddies) == s
      && |up.session.buddies| == 1
      && Registry.Get(up.session.buddies, k).Some?
      && Registry.Get(up.session.buddies, k).value.connected
      && TidOf(Registry.Get(up.session.buddies, k).value.outgoing) == Some(t.tid)
  {
    SoleDial(s, k, p, t);
    var q := AdoptDialed(p, t).peer;
    SoleUp(s.(buddies := [Registry.Entry(k, q)]), k, q);
  }

  /** The connect block on the sole peer, with no `:outgoing` handler: adopted, silently. */
  lemma SoleDial(s: Session.State, k: string, p: Peer, t: Transport)
    requires s.buddies == [Registry.Entry(k, p)]
    requires Dispatch.HandlersFor(s.callbacks, "outgoing") == []
    ensures var dialled := Session.Signal(s, k, Lifecycle.Opened(t));
      && dialled.fault == None && dialled.trace == []
      && dialled.session == s.(buddies := [Registry.Entry(k, AdoptDialed(p, t).peer)])
  {
    assert Registry.Get(s.buddies, k) == Some(p);
    var dialled := Session.Signal(s, k, Lifecycle.Opened(t));
    SoleEntry(dialled.session.buddies, k);
    var st := AdoptDialed(p, t);
    Session.DeliverEvent(dialled.session, "outgoing", st.trace[0].args);
  }

  /** `connected` to the sole peer, which holds an outgoing transport, with no `:connection` handler. */
  lemma SoleUp(s: Session.State, k: string, q: Peer)
    requires s.buddies == [Registry.Entry(k, q)]
    requires Dispatch.HandlersFor(s.callbacks, "connection") == []
    requires !q.connected && q.outgoing.Some?
    ensures var up := Session.Signal(s, k, Lifecycle.Up);
      && up.fault == None && up.trace == [SentForced(q.outgoing.value.tid, Ping(Session.Address(s)))]
      && up.session == s.(buddies := [Registry.Entry(k, Connected(q, Session.Address(s)).peer)])
  {
    assert Registry.Get(s.buddies, k) == Some(q);
    var up := Session.Signal(s, k, Lifecycle.Up);
    SoleEntry(up.session.buddies, k);
    var st := Connected(q, Session.Address(s));
    Session.DeliverEffectThenEvent(up.session, st.trace[0], "connection", st.trace[1].args);
  }

  /** A registry of one entry under `k`: that entry is the one `Get` finds. */
  lemma SoleEntry(es: Registry.Entries, k: string)
    requires |es| == 1 && Registry.Get(es, k).Some?
    ensures es == [Registry.Entry(k, Registry.Get(es, k).value)]
  {
  }

  /**
   * A profile name that B sends, received from the registered peer, is stored on the registry's
   * peer: looking B up by that name then finds it, whatever the name.
   */
  lemma NameReceivedIsRegistered(isAddress: string -> bool, config: Settings.Config, release: string,
                                 b: string, v: string)
    requires isAddress(b) && isAddress(Onion.AddressOf(Onion.Normalize(b)))
    ensures var k := Onion.Normalize(b);
      var added := Session.AddBuddy(Session.New(config, release), isAddress, b);
      var heard := Session.ReceivedFrom(added.session, k, ProfileName(v));
      && heard.fault == None && heard.trace == []
      && Registry.Get(heard.session.buddies, k).Some?
      && Registry.Get(heard.session.buddies, k).value.name == Some(v)
      && Registry.Get(heard.session.buddies, k).value.(name := None) == Registry.Get(added.session.buddies, k).value
      && Registry.Lookup(heard.session.buddies, v) == Registry.Get(heard.session.buddies, k)
      && var found := Registry.LookupAsWritten(heard.session.buddies, v);
      && (found.Hit? || found.HitPair?)
      && (found.Hit? ==> Some(found.peer) == Registry.Get(heard.session.buddies, k))
      && (found.HitPair? ==> found.key == k && Some(found.pairPeer) == Registry.Get(heard.session.buddies, k))
  {
    var k := Onion.Normalize(b);
    AddedPeerIsConnecting(isAddress, config, release, b);
    var added := Session.AddBuddy(Session.New(config, release), isAddress, b);
    var p := Registry.Get(added.session.buddies, k).value;
    Session.InboundProfile(added.session, ProfileName(v), p);
    var heard := Session.ReceivedFrom(added.session, k, ProfileName(v));
    SoleEntry(heard.session.buddies, k);
    if v !in Registry.Keys(heard.session.buddies) && Onion.Normalize(v) !in Registry.Keys(heard.session.buddies) {
      Registry.ScanHitIsPair(heard.session.buddies, v);
    }
  }
}

=== FILE: lifecycle.dfy ===
/**
 * A peer driven by any sequence of signals from the transports and the keepalive timer. Each
 * transition checks the current state first, so arbitrary orderings stay consistent: the flags
 * never claim connecting and connected at once, transports keep pointing at their owner, and no
 * `:disconnection` is ever fired without a connection to end.
 */
module Lifecycle {
  import opened Common
  import opened Packets
  import Settings
  import opened Buddy

  /** What the outside world may do to a peer next. */
  datatype Signal =
    | Dial                     // `connect`
    | Opened(t: Transport)     // the block `EM.connect` runs on the new connection
    | Adopt(offer: Offer)      // `own!`
    | Up                       // `connected`
    | Verify                   // `verified`
    | Down                     // `disconnect`
    | Dropped                  // `disconnected`
    | PingSent                 // `ping!`
    | PongSeen                 // `pong!`
    | Ready                    // `ready!`

  /** What the session supplies to a peer: the proxy endpoint and its own address. */
  datatype Env = Env(proxy: Settings.Endpoint, ownAddress: string)

  function Apply(p: Peer, env: Env, sig: Signal): Step
  {
    match sig
    case Dial => Connect(p, env.proxy)
    case Opened(t) => AdoptDialed(p, t)
    case Adopt(o) => Step(Own(p, o), [], None)
    case Up => Connected(p, env.ownAddress)
    case Verify => Verified(p)
    case Down => Disconnect(p)
    case Dropped => Disconnected(p)
    case PingSent => Step(Pinged(p), [], None)
    case PongSeen => Step(Ponged(p), [], None)
    case Ready => Step(MarkReady(p), [], None)
  }

  /** A run of signals: the final state, every effect in order, and how many transitions raised. */
  datatype Trail = Trail(peer: Peer, trace: seq<Effect>, raises: nat)

  /**
   * The signals in order. A raise ends only the call that raised: the peer object keeps the state
   * the transition left it in, and the next signal reaches it.
   */
  function Drive(p: Peer, env: Env, sigs: seq<Signal>): Trail
    decreases |sigs|
  {
    if |sigs| == 0 then Trail(p, [], 0)
    else
      var st := Apply(p, env, sigs[0]);
      var rest := Drive(st.peer, env, sigs[1..]);
      Trail(rest.peer, st.trace + rest.trace, Flag(st.fault.Some?) + rest.raises)
  }

  /** How many events with this tag the trace fired. */
  function CountFired(trace: seq<Effect>, tag: Tag): nat
    decreases |trace|
  {
    if |trace| == 0 then 0
    else Hits(trace[0], tag) + CountFired(trace[1..], tag)
  }

  lemma {:induction false} CountFiredAppend(a: seq<Effect>, b: seq<Effect>, tag: Tag)
    ensures CountFired(a + b, tag) == CountFired(a, tag) + CountFired(b, tag)
    decreases |a|
  {
    if |a| == 0 {
      assert a + b == b;
    } else {
      assert (a + b)[0] == a[0];
      assert (a + b)[1..] == a[1..] + b;
      CountFiredAppend(a[1..], b, tag);
    }
  }

  function Hits(e: Effect, tag: Tag): nat
  {
    if e.Fired? && e.tag == tag then 1 else 0
  }

  /** The count of a trace of at most two effects, read off its elements. */
  lemma CountFiredUpToTwo(t: seq<Effect>, tag: Tag)
    requires |t| <= 2
    ensures CountFired(t, tag) == (if |t| > 0 then Hits(t[0], tag) else 0) + (if |t| > 1 then Hits(t[1], tag) else 0)
  {
    if |t| > 0 {
      var tail := t[1..];
      if |t| == 2 {
        assert tail[0] == t[1] && |tail[1..]| == 0;
      }
    }
  }

  lemma {:induction false} NoEventsNoCount(t: seq<Effect>, tag: Tag)
    requires forall i :: 0 <= i < |t| ==> !t[i].Fired?
    ensures CountFired(t, tag) == 0
    decreases |t|
  {
    if |t| > 0 {
      NoEventsNoCount(t[1..], tag);
    }
  }

  /** Every single transition keeps a coherent peer coherent. */
  lemma ApplyKeepsCoherent(p: Peer, env: Env, sig: Signal)
    requires Coherent(p)
    ensures Coherent(Apply(p, env, sig).peer)
  {
  }

  /** However the signals are ordered, and whichever of them raise, a coherent peer stays coherent. */
  lemma {:induction false} DriveKeepsCoherent(p: Peer, env: Env, sigs: seq<Signal>)
    requires Coherent(p)
    ensures Coherent(Drive(p, env, sigs).peer)
    decreases |sigs|
  {
    if |sigs| > 0 {
      ApplyKeepsCoherent(p, env, sigs[0]);
      DriveKeepsCoherent(Apply(p, env, sigs[0]).peer, env, sigs[1..]);
    }
  }

  function Flag(b: bool): nat { if b then 1 else 0 }

  /**
   * One transition: a `:disconnection` is only fired by a peer that was connected and leaves it
   * disconnected, and a peer only becomes connected without firing `:connection` when the ping
   * raises.
   */
  lemma ApplyBalance(p: Peer, env: Env, sig: Signal)
    ensures Balanced(p, Apply(p, env, sig))
  {
    match sig
    case Down => DisconnectBalance(p);
    case Dropped => DisconnectedBalance(p);
    case Up => ConnectedBalance(p, env.ownAddress);
    case Verify => VerifiedBalance(p);
    case Dial => ConnectBalance(p, env.proxy);
    case Opened(t) => AdoptDialedBalance(p, t);
    case _ =>
  }

  lemma ConnectedBalance(p: Peer, ownAddress: string)
    ensures Balanced(p, Connected(p, ownAddress))
  {
    CountFiredUpToTwo(Connected(p, ownAddress).trace, "disconnection");
    CountFiredUpToTwo(Connected(p, ownAddress).trace, "connection");
  }

  lemma VerifiedBalance(p: Peer)
    ensures Balanced(p, Verified(p))
  {
    CountFiredUpToTwo(Verified(p).trace, "disconnection");
    CountFiredUpToTwo(Verified(p).trace, "connection");
  }

  lemma DisconnectedBalance(p: Peer)
    ensures Balanced(p, Disconnected(p))
  {
    CountFiredUpToTwo(Disconnected(p).trace, "disconnection");
    CountFiredUpToTwo(Disconnected(p).trace, "connection");
  }

  lemma ConnectBalance(p: Peer, proxy: Settings.Endpoint)
    ensures Balanced(p, Connect(p, proxy))
  {
    CountFiredUpToTwo(Connect(p, proxy).trace, "disconnection");
    CountFiredUpToTwo(Connect(p, proxy).trace, "connection");
  }

  lemma AdoptDialedBalance(p: Peer, t: Transport)
    ensures Balanced(p, AdoptDialed(p, t))
  {
    CountFiredUpToTwo(AdoptDialed(p, t).trace, "disconnection");
    CountFiredUpToTwo(AdoptDialed(p, t).trace, "connection");
  }

  /** The two counts one transition from `p` to `st` must respect. */
  predicate Balanced(p: Peer, st: Step)
  {
    && CountFired(st.trace, "disconnection") + Flag(st.peer.connected)
         <= CountFired(st.trace, "connection") + Flag(p.connected) + Flag(st.fault.Some?)
    && CountFired(st.trace, "disconnection") <= Flag(p.connected)
  }

  lemma DisconnectBalance(p: Peer)
    ensures Balanced(p, Disconnect(p))
  {
    var st := Disconnect(p);
    if p.connected {
      var closes := CloseIfHeld(p.incoming) + CloseIfHeld(p.outgoing);
      var fired := Fired("disconnection", OfPeer(st.peer));
      CountFiredAppend(closes, [fired], "disconnection");
      CountFiredAppend(closes, [fired], "connection");
      NoEventsNoCount(closes, "disconnection");
      NoEventsNoCount(closes, "connection");
      CountFiredUpToTwo([fired], "disconnection");
      CountFiredUpToTwo([fired], "connection");
    } else {
      CountFiredUpToTwo(st.trace, "disconnection");
      CountFiredUpToTwo(st.trace, "connection");
    }
  }

  /**
   * Over any run, `:disconnection` never fires more often than `:connection`, plus one for a peer
   * that started out connected, plus one for every raise: ending a connection twice fires no
   * second event, and only a `connected` whose ping raised leaves a connection nothing announced.
   */
  lemma {:induction false} DisconnectionsNeverOutnumberConnections(p: Peer, env: Env, sigs: seq<Signal>)
    ensures var r := Drive(p, env, sigs);
      CountFired(r.trace, "disconnection") + Flag(r.peer.connected)
        <= CountFired(r.trace, "connection") + Flag(p.connected) + r.raises
    ensures var r := Drive(p, env, sigs);
      r.raises == 0 ==> CountFired(r.trace, "disconnection") <= CountFired(r.trace, "connection") + Flag(p.connected)
    decreases |sigs|
  {
    if |sigs| > 0 {
      var st := Apply(p, env, sigs[0]);
      ApplyBalance(p, env, sigs[0]);
      DisconnectionsNeverOutnumberConnections(st.peer, env, sigs[1..]);
      var rest := Drive(st.peer, env, sigs[1..]);
      CountFiredAppend(st.trace, rest.trace, "disconnection");
      CountFiredAppend(st.trace, rest.trace, "connection");
    }
  }

  /**
   * The raise term is needed: a peer without transports whose `connected` raises is still left
   * connected, so a `disconnect` then fires `:disconnection` that no `:connection` preceded.
   */
  lemma RaisedConnectionStillEnds(p: Peer, env: Env)
    requires !p.connected && p.incoming.None? && p.outgoing.None?
    ensures var r := Drive(p, env, [Up, Down]);
      && CountFired(r.trace, "disconnection") == 1
      && CountFired(r.trace, "connection") == 0
      && r.raises == 1
  {
    var up := Connected(p, env.ownAddress);
    var down := Disconnect(up.peer);
    assert [Up, Down][1..] == [Down] && [Down][1..] == [];
    assert Drive(p, env, [Up, Down]).trace == down.trace;
    CountFiredUpToTwo(down.trace, "disconnection");
    CountFiredUpToTwo(down.trace, "connection");
  }

  /**
   * `disconnect` on a connected peer closes and drops both transports and fires `:disconnection`
   * once; a second `disconnect` does nothing, and neither does `disconnect` on a peer that is
   * only connecting. Status then reads offline.
   */
  lemma DisconnectTwice(p: Peer)
    ensures var first := Disconnect(p);
      && Disconnect(first.peer) == Step(first.peer, [], None)
      && ObservedStatus(first.peer) == Some(Offline)
      && (p.connected ==> CountFired(first.trace, "disconnection") == 1)
      && (p.connecting && !p.connected ==> first == Step(p, [], None))
  {
    var first := Disconnect(p);
    if p.connected {
      var closes := CloseIfHeld(p.incoming) + CloseIfHeld(p.outgoing);
      var fired := Fired("disconnection", OfPeer(first.peer));
      CountFiredAppend(closes, [fired], "disconnection");
      NoEventsNoCount(closes, "disconnection");
      CountFiredUpToTwo([fired], "disconnection");
    }
  }

  /**
   * `disconnected` called directly on a connected peer resets the flags and fires once, but the
   * nested `disconnect` returns at once, so both transports stay held and none is closed.
   */
  lemma DisconnectedKeepsTransports(p: Peer)
    requires p.connected
    ensures var r := Disconnected(p);
      && r.peer.incoming == p.incoming && r.peer.outgoing == p.outgoing
      && !r.peer.connected && !r.peer.connecting && !r.peer.verified && !r.peer.ready
      && CountFired(r.trace, "disconnection") == 1
      && forall i :: 0 <= i < |r.trace| ==> !r.trace[i].ClosedAfterWriting?
  {
    var r := Disconnected(p);
    CountFiredUpToTwo(r.trace, "disconnection");
  }

  /**
   * A second `connect`, `connected` or `verified` changes nothing and fires nothing, even after a
   * first `connected` that raised: that call had already set `connected`.
   */
  lemma TransitionsAreIdempotent(p: Peer, env: Env)
    ensures var c := Connected(p, env.ownAddress);
      Connected(c.peer, env.ownAddress) == Step(c.peer, [], None)
    ensures var v := Verified(p);
      Verified(v.peer) == Step(v.peer, [], None)
    ensures var d := Connect(p, env.proxy);
      Connect(d.peer, env.proxy) == Step(d.peer, [], None)
  {
  }

  /** The first `connected` sends exactly one forced ping with the own address and fires once. */
  lemma ConnectedPingsOnce(p: Peer, env: Env)
    requires !p.connected && p.outgoing.Some?
    ensures var c := Connected(p, env.ownAddress);
      && c.peer.pinged
      && multiset(c.trace)[SentForced(p.outgoing.value.tid, Ping(env.ownAddress))] == 1
      && CountFired(c.trace, "connection") == 1
  {
    var c := Connected(p, env.ownAddress);
    CountFiredUpToTwo(c.trace, "connection");
  }
}

=== FILE: onion.dfy ===
/**
 * Onion-id normalisation. The source extracts group 1 of `/^(.*?)(\.onion)?$/` from an id.
 * In Ruby `^` and `$` anchor at line boundaries and `.` stops at a line break, so the match
 * lives inside the first line; the lazy group stops as early as the rest of that line is
 * empty or exactly ".onion". The result is the first line with one trailing ".onion" removed.
 */
module Onion {

  /** The hidden-service suffix an onion id may carry. */
  const Suffix: string := ".onion"

  /** The text before the first line break. */
  function FirstLine(s: string): (r: string)
    ensures r <= s
    ensures '\n' !in r
    ensures |r| == |s| || s[|r|] == '\n'
  {
    if |s| == 0 || s[0] == '\n' then "" else [s[0]] + FirstLine(s[1..])
  }

  predicate HasSuffix(line: string)
  {
    |line| >= |Suffix| && line[|line| - |Suffix|..] == Suffix
  }

  function Strip(line: string): (r: string)
    ensures HasSuffix(line) ==> r + Suffix == line
    ensures !HasSuffix(line) ==> r == line
  {
    assert HasSuffix(line) ==> line == line[..|line| - |Suffix|] + line[|line| - |Suffix|..];
    if HasSuffix(line) then line[..|line| - |Suffix|] else line
  }

  /** Group 1 of `/^(.*?)(\.onion)?$/` on `s`: the bare onion id. */
  function Normalize(s: string): (r: string)
    ensures r <= s
    ensures '\n' !in r
    ensures FirstLine(s) == r || FirstLine(s) == r + Suffix
    ensures FirstLine(s) == r + Suffix <==> HasSuffix(FirstLine(s))
  {
    Strip(FirstLine(s))
  }

  /** The address form of a bare id. */
  function AddressOf(id: string): (r: string)
    ensures |r| == |id| + |Suffix|
    ensures r[..|id|] == id && HasSuffix(r)
  {
    assert (id + Suffix)[|id|..] == Suffix;
    id + Suffix
  }

  /**
   * Reference semantics of the lazy group: on a line without breaks, the group may end at `k`
   * exactly when the rest of the line is empty or is the suffix.
   */
  ghost predicate GroupMayEndAt(line: string, k: nat)
  {
    k <= |line| && (line[k..] == "" || line[k..] == Suffix)
  }

  /** Normalize picks the earliest end the lazy group can take, as the regex engine does. */
  lemma {:induction false} NormalizeIsLazyMatch(s: string)
    ensures GroupMayEndAt(FirstLine(s), |Normalize(s)|)
    ensures forall k: nat :: k < |Normalize(s)| ==> !GroupMayEndAt(FirstLine(s), k)
  {
    var line, r := FirstLine(s), Normalize(s);
    if HasSuffix(line) {
      assert line == r + Suffix;
      assert line[|r|..] == Suffix;
      forall k: nat | k < |r|
        ensures !GroupMayEndAt(line, k)
      {
        assert |line[k..]| > |Suffix|;
      }
    } else {
      assert line == r;
    }
  }

  lemma FirstLineOfUnbroken(s: string)
    requires '\n' !in s
    ensures FirstLine(s) == s
  {
  }

  /** Appending the suffix to a bare id and normalising gives the id back. */
  lemma NormalizeAddressOf(id: string)
    ensures '\n' !in id ==> Normalize(AddressOf(id)) == id
  {
    if '\n' in id { return; }
    var a := AddressOf(id);
    assert forall i :: 0 <= i < |a| ==> a[i] == (if i < |id| then id[i] else Suffix[i - |id|]);
    assert '\n' !in a;
    FirstLineOfUnbroken(a);
    assert a[..|a| - |Suffix|] == id;
  }

  /** An id without line breaks and without the suffix is already bare. */
  lemma NormalizeBare(id: string)
    requires '\n' !in id && !HasSuffix(id)
    ensures Normalize(id) == id
  {
    FirstLineOfUnbroken(id);
  }

  /** Only one suffix is removed, so normalising is not idempotent. */
  lemma NormalizeStripsOnce()
    ensures Normalize("a.onion.onion") == "a.onion"
    ensures Normalize(Normalize("a.onion.onion")) == "a"
  {
    assert AddressOf("a.onion") == "a.onion.onion";
    assert AddressOf("a") == "a.onion";
    NormalizeAddressOf("a.onion");
    NormalizeAddressOf("a");
  }
}

=== FILE: packets.dfy ===
/** The packets and tags the core sends and dispatches on. The wire format itself is not modelled. */
module Packets {
  import opened Common

  type Bytes = seq<bv8>

  /** An event or packet tag: the name of the Ruby symbol (`:verification` is "verification"). */
  type Tag = string

  /** Presence states a peer may announce. */
  datatype Status = Offline | Available | Away | ExtendedAway | DoNotDisturb

  /**
   * The packets the core builds or inspects; any other kind is `Other`, known only by its tag.
   * That tag is never one of the typed packets' tags: the protocol parses those kinds as the
   * typed packets, so an `Other` under a profile tag stands for nothing the source can receive.
   */
  datatype Packet =
    | Ping(address: string)
    | Message(text: string)
    | ClientName(client: string)
    | ClientVersion(version: string)
    | AddMe
    | StatusUpdate(status: Status)
    | ProfileName(text: string)
    | ProfileText(text: string)
    | ProfileAvatar(data: Bytes)
    | ProfileAvatarAlpha(data: Bytes)
    | Other(kind: Tag)

  /** `packet.type`: the tag the packet is dispatched under. */
  function TypeOf(p: Packet): Tag
  {
    match p
    case Ping(_) => "ping"
    case Message(_) => "message"
    case ClientName(_) => "client"
    case ClientVersion(_) => "version"
    case AddMe => "add_me"
    case StatusUpdate(_) => "status"
    case ProfileName(_) => "profile_name"
    case ProfileText(_) => "profile_text"
    case ProfileAvatar(_) => "profile_avatar"
    case ProfileAvatarAlpha(_) => "profile_avatar_alpha"
    case Other(k) => k
  }

  /** `packet.to_str`: defined on the two textual profile packets only. */
  function TextOf(p: Packet): Option<string>
  {
    match p
    case ProfileName(t) => Some(t)
    case ProfileText(t) => Some(t)
    case _ => None
  }

  /** `packet.data`: defined on the two avatar packets only. */
  function DataOf(p: Packet): Option<Bytes>
  {
    match p
    case ProfileAvatar(d) => Some(d)
    case ProfileAvatarAlpha(d) => Some(d)
    case _ => None
  }
}

=== FILE: registry.dfy ===
/**
 * The address-normalising peer registry (`Buddies`, a Hash subclass). A Ruby Hash keeps its
 * entries in insertion order and reassigning an existing key keeps its place, so the registry is
 * an ordered list of entries with distinct keys.
 */
module Registry {
  import opened Common
  import Onion
  import opened Buddy

  datatype Entry = Entry(key: string, peer: Peer)

  type Entries = seq<Entry>

  ghost predicate DistinctKeys(es: Entries)
  {
    forall i, j :: 0 <= i < j < |es| ==> es[i].key != es[j].key
  }

  function Keys(es: Entries): set<string>
  {
    set i | 0 <= i < |es| :: es[i].key
  }

  /** Plain `Hash#[]`: the value stored under exactly `k`. */
  function Get(es: Entries, k: string): (r: Option<Peer>)
    ensures r.None? <==> k !in Keys(es)
    ensures r.Some? ==> Entry(k, r.value) in es
  {
    if |es| == 0 then None
    else if es[0].key == k then Some(es[0].peer)
    else Get(es[1..], k)
  }

  /** Plain `Hash#[]=`: replaces the entry under `k` in place, or appends a new one at the end. */
  function Put(es: Entries, k: string, v: Peer): (r: Entries)
    ensures Get(r, k) == Some(v)
    ensures forall k' :: k' != k ==> Get(r, k') == Get(es, k')
    ensures k !in Keys(es) ==> r == es + [Entry(k, v)]
    ensures k in Keys(es) ==> |r| == |es| && forall i :: 0 <= i < |es| ==> r[i].key == es[i].key
  {
    if |es| == 0 then [Entry(k, v)]
    else if es[0].key == k then [Entry(k, v)] + es[1..]
    else
      var rest := Put(es[1..], k, v);
      KeysCons(es);
      var r := [es[0]] + rest;
      assert r[1..] == rest;
      r
  }

  /** The keys of a non-empty list: its head's key and the keys of its tail. */
  lemma KeysCons(es: Entries)
    requires |es| > 0
    ensures Keys(es) == {es[0].key} + Keys(es[1..])
  {
    forall x | x in Keys(es)
      ensures x in {es[0].key} + Keys(es[1..])
    {
      var i :| 0 <= i < |es| && es[i].key == x;
      if i > 0 {
        assert es[1..][i - 1].key == x;
      }
    }
    forall x | x in Keys(es[1..])
      ensures x in Keys(es)
    {
      var i :| 0 <= i < |es| - 1 && es[1..][i].key == x;
      assert es[i + 1].key == x;
    }
  }

  /** Plain assignment adds exactly `k` to the keys. */
  lemma {:induction false} PutKeys(es: Entries, k: string, v: Peer)
    ensures Keys(Put(es, k, v)) == Keys(es) + {k}
  {
    var r := Put(es, k, v);
    if |es| == 0 {
      assert Keys(r) == {k} by {
        assert r[0].key == k;
      }
    } else {
      KeysCons(es);
      KeysCons(r);
      if es[0].key == k {
        assert r[1..] == es[1..];
      } else {
        PutKeys(es[1..], k, v);
        assert r[1..] == Put(es[1..], k, v);
      }
    }
  }

  /** Plain assignment keeps the keys distinct. */
  lemma PutDistinct(es: Entries, k: string, v: Peer)
    requires DistinctKeys(es)
    ensures DistinctKeys(Put(es, k, v))
  {
    var r := Put(es, k, v);
    if k !in Keys(es) {
      forall i, j | 0 <= i < j < |r|
        ensures r[i].key != r[j].key
      {
        if j == |es| {
          assert r[i].key == es[i].key && es[i].key in Keys(es);
        } else {
          assert r[i] == es[i] && r[j] == es[j];
        }
      }
    }
  }

  /** The scan's test `name === b.alias || name === b.name`, with `===` taken as string equality. */
  predicate Answers(p: Peer, name: string)
  {
    p.alias == Some(name) || p.name == Some(name)
  }

  /** `find { |a, b| … }`: the first entry, in insertion order, whose peer answers to `name`. */
  function Find(es: Entries, name: string): (r: Option<Entry>)
    ensures r.None? <==> forall i :: 0 <= i < |es| ==> !Answers(es[i].peer, name)
    ensures r.Some? ==> exists i :: 0 <= i < |es| && es[i] == r.value && Answers(es[i].peer, name)
                                    && forall j :: 0 <= j < i ==> !Answers(es[j].peer, name)
  {
    if |es| == 0 then None
    else if Answers(es[0].peer, name) then Some(es[0])
    else
      var rest := Find(es[1..], name);
      assert forall j :: 1 <= j < |es| ==> es[j] == es[1..][j - 1];
      rest
  }

  /** What `Buddies#[]` returns as written: a peer, the `[key, peer]` pair `find` yields, or nil. */
  datatype Found = Hit(peer: Peer) | HitPair(key: string, pairPeer: Peer) | Miss

  /**
   * `Buddies#[]` as written: exact key, then the normalised key, then the name scan, whose
   * `Hash#find` result is the whole entry rather than its peer.
   */
  function LookupAsWritten(es: Entries, name: string): (r: Found)
    ensures r.Miss? <==> name !in Keys(es) && Onion.Normalize(name) !in Keys(es) && Find(es, name).None?
    ensures r.HitPair? <==> name !in Keys(es) && Onion.Normalize(name) !in Keys(es) && Find(es, name).Some?
    ensures name in Keys(es) ==> r == Hit(Get(es, name).value)
    ensures name !in Keys(es) && Onion.Normalize(name) in Keys(es) ==> r == Hit(Get(es, Onion.Normalize(name)).value)
    ensures r.Hit? ==> Lookup(es, name) == Some(r.peer)
  {
    match Get(es, name)
    case Some(b) => Hit(b)
    case None =>
      match Get(es, Onion.Normalize(name))
      case Some(b) => Hit(b)
      case None =>
        match Find(es, name)
        case Some(e) => HitPair(e.key, e.peer)
        case None => Miss
  }

  /**
   * `Buddies#[]` as evidently intended: the same three tries, the scan yielding its peer. It
   * returns nil (never raises) exactly on a total miss, and otherwise a registered peer.
   */
  function Lookup(es: Entries, name: string): (r: Option<Peer>)
    ensures r.None? <==> name !in Keys(es) && Onion.Normalize(name) !in Keys(es) && Find(es, name).None?
    ensures r.Some? ==> exists i :: 0 <= i < |es| && es[i].peer == r.value
    ensures name in Keys(es) ==> r == Get(es, name)
    ensures name !in Keys(es) && Onion.Normalize(name) in Keys(es) ==> r == Get(es, Onion.Normalize(name))
    ensures name !in Keys(es) && Onion.Normalize(name) !in Keys(es) && Find(es, name).Some? ==>
      r == Some(Find(es, name).value.peer)
  {
    match Get(es, name)
    case Some(b) => Some(b)
    case None =>
      match Get(es, Onion.Normalize(name))
      case Some(b) => Some(b)
      case None =>
        match Find(es, name)
        case Some(e) => Some(e.peer)
        case None => None
  }

  /** A name found only by the scan comes back from the code as written as a pair, not a peer. */
  lemma ScanHitIsPair(es: Entries, name: string)
    requires name !in Keys(es) && Onion.Normalize(name) !in Keys(es) && Find(es, name).Some?
    ensures LookupAsWritten(es, name) == HitPair(Find(es, name).value.key, Lookup(es, name).value)
    ensures !LookupAsWritten(es, name).Hit?
  {
  }

  /** `Buddies#[]=` as written: a key that is not an address always raises, match or no match. */
  function InsertAsWritten(isAddress: string -> bool, es: Entries, name: string, b: Peer): (r: Result<Entries>)
    ensures r.Err? <==> !isAddress(name)
    ensures r.Err? ==> r.fault == NoMethod
    ensures r.Ok? ==> r.value == Put(es, Onion.Normalize(name), b)
  {
    if !isAddress(name) then
      // `find` yields nil (no `address` method) or a pair (an Array has no `address` either)
      Err(NoMethod)
    else Ok(Put(es, Onion.Normalize(name), b))
  }

  /**
   * `Buddies#[]=` as evidently intended: a key that is not an address names a registered peer by
   * alias or name and is replaced by that peer's address; no match is a hard failure. The
   * resulting key has one trailing ".onion" removed, and only its entry changes.
   */
  function Insert(isAddress: string -> bool, es: Entries, name: string, b: Peer): (r: Result<Entries>)
    ensures r.Err? <==> !isAddress(name) && Find(es, name).None?
    ensures r.Err? ==> r.fault == NoMethod
    ensures r.Ok? ==> Get(r.value, InsertKey(isAddress, es, name)) == Some(b)
    ensures r.Ok? ==> forall k :: k != InsertKey(isAddress, es, name) ==> Get(r.value, k) == Get(es, k)
  {
    if !isAddress(name) && Find(es, name).None? then Err(NoMethod)
    else Ok(Put(es, InsertKey(isAddress, es, name), b))
  }

  /** Every insert keeps the registry's keys distinct and adds at most the one key. */
  lemma InsertKeepsKeysDistinct(isAddress: string -> bool, es: Entries, name: string, b: Peer)
    requires DistinctKeys(es)
    requires Insert(isAddress, es, name, b).Ok?
    ensures DistinctKeys(Insert(isAddress, es, name, b).value)
    ensures Keys(Insert(isAddress, es, name, b).value) == Keys(es) + {InsertKey(isAddress, es, name)}
  {
    PutDistinct(es, InsertKey(isAddress, es, name), b);
    PutKeys(es, InsertKey(isAddress, es, name), b);
  }

  /** The key `Insert` stores under when it succeeds. */
  function InsertKey(isAddress: string -> bool, es: Entries, name: string): string
  {
    if isAddress(name) then Onion.Normalize(name)
    else match Find(es, name)
      case Some(e) => Onion.Normalize(e.peer.address)
      case None => Onion.Normalize(name)
  }

  /**
   * `Buddies#<<`: `self[buddy.address] = buddy`. An address `isAddress` refuses takes the
   * assignment's name-scan branch, which raises whatever the scan finds; otherwise the peer is
   * filed under the address with one ".onion" removed, which for a peer built by `Buddy.New` is
   * its bare id.
   */
  function Append(isAddress: string -> bool, es: Entries, b: Peer): (r: Result<Entries>)
    ensures r.Err? <==> !isAddress(b.address)
    ensures r.Err? ==> r.fault == NoMethod
    ensures r.Ok? ==> r.value == Put(es, Onion.Normalize(b.address), b)
    ensures isAddress(b.address) && b.address == Onion.AddressOf(b.id) && '\n' !in b.id ==>
      r == Ok(Put(es, b.id, b))
  {
    Onion.NormalizeAddressOf(b.id);
    InsertAsWritten(isAddress, es, b.address, b)
  }

  /** On an address `isAddress` accepts, `<<` as written and the intended insert agree. */
  lemma AppendAgreesWithInsert(isAddress: string -> bool, es: Entries, b: Peer)
    requires isAddress(b.address)
    ensures Append(isAddress, es, b) == Insert(isAddress, es, b.address, b)
  {
  }

  /**
   * After appending a peer with bare id `foo`, looking up `foo` and `foo.onion` both give it,
   * and every other key keeps its entry.
   */
  lemma AppendThenLookup(isAddress: string -> bool, es: Entries, b: Peer)
    requires isAddress(b.address) && b.address == Onion.AddressOf(b.id) && '\n' !in b.id
    requires b.address !in Keys(es)
    ensures Append(isAddress, es, b).Ok?
    ensures Lookup(Append(isAddress, es, b).value, b.id) == Some(b)
    ensures Lookup(Append(isAddress, es, b).value, b.address) == Some(b)
    ensures LookupAsWritten(Append(isAddress, es, b).value, b.id) == Hit(b)
    ensures LookupAsWritten(Append(isAddress, es, b).value, b.address) == Hit(b)
    ensures forall k :: k != b.id ==> Get(Append(isAddress, es, b).value, k) == Get(es, k)
  {
    var r := Append(isAddress, es, b).value;
    Onion.NormalizeAddressOf(b.id);
    assert b.address != b.id;
    assert b.address !in Keys(r);
  }

  /**
   * The intended alias rename: inserting under the alias of a peer filed under its bare id
   * replaces that very entry, keeping the number of entries.
   */
  lemma RenameReplacesMatchedEntry(isAddress: string -> bool, es: Entries, name: string, b: Peer, i: nat)
    requires !isAddress(name) && i < |es| && DistinctKeys(es)
    requires Find(es, name) == Some(es[i])
    requires es[i].peer.address == Onion.AddressOf(es[i].key) && '\n' !in es[i].key
    ensures Insert(isAddress, es, name, b).Ok?
    ensures Get(Insert(isAddress, es, name, b).value, es[i].key) == Some(b)
    ensures |Insert(isAddress, es, name, b).value| == |es|
  {
    Onion.NormalizeAddressOf(es[i].key);
    assert InsertKey(isAddress, es, name) == es[i].key;
  }

  /** The counterexample for the as-written insert: a key matching a peer's alias still raises. */
  lemma AliasInsertFailsAsWritten(isAddress: string -> bool, b: Peer, c: Peer)
    requires !isAddress("bob") && b.alias == Some("bob")
    ensures InsertAsWritten(isAddress, [Entry(b.id, b)], "bob", c) == Err(NoMethod)
    ensures Insert(isAddress, [Entry(b.id, b)], "bob", c).Ok?
  {
    assert Answers([Entry(b.id, b)][0].peer, "bob");
  }
}

=== FILE: server.dfy ===
/**
 * The Server orchestrator: the same callback table and registry as a Session, with no identity
 * of its own and no default handlers. Its blocks are opaque, so dispatch records each call.
 */
module Server {
  import opened Common
  import opened Packets
  import Settings
  import Dispatch
  import opened Buddy
  import Registry
  import Onion

  /** A block passed to `on` is known by its number. */
  datatype State = State(config: Settings.Config, callbacks: Dispatch.Table<nat>, buddies: Registry.Entries)

  datatype Change = Change(server: State, trace: seq<Effect>, fault: Option<Fault>)

  /** `Server.new(config)`: an empty registry and an empty callback table. */
  function New(config: Settings.Config): (s: State)
    ensures s.config == config && s.buddies == []
    ensures forall tag :: Dispatch.HandlersFor(s.callbacks, tag) == []
  {
    State(config, Dispatch.Empty(), [])
  }

  /** `on(tag) { … }`. */
  function On(s: State, tag: Tag, hid: nat): (r: State)
    ensures Dispatch.HandlersFor(r.callbacks, tag) == Dispatch.HandlersFor(s.callbacks, tag) + [hid]
    ensures forall other :: other != tag ==>
      Dispatch.HandlersFor(r.callbacks, other) == Dispatch.HandlersFor(s.callbacks, other)
    ensures r.(callbacks := s.callbacks) == s
  {
    s.(callbacks := Dispatch.On(s.callbacks, tag, hid))
  }

  /** Each block called once with the same arguments, in order. */
  function Calls(hs: seq<nat>, args: Args): (r: seq<Effect>)
    ensures |r| == |hs|
    ensures forall i :: 0 <= i < |hs| ==> r[i] == Invoked(hs[i], args)
    decreases |hs|
  {
    if |hs| == 0 then [] else [Invoked(hs[0], args)] + Calls(hs[1..], args)
  }

  /** `received(packet)`: the blocks for the packet's type, called with `(packet, packet.from)`. */
  function Received(s: State, packet: Packet, from: Peer): (r: seq<Effect>)
    ensures |r| == |Dispatch.HandlersFor(s.callbacks, TypeOf(packet))|
    ensures forall i :: 0 <= i < |r| ==>
      r[i] == Invoked(Dispatch.HandlersFor(s.callbacks, TypeOf(packet))[i], FromPacket(packet, from))
  {
    Calls(Dispatch.HandlersFor(s.callbacks, TypeOf(packet)), FromPacket(packet, from))
  }

  /** `fire(name, *args)`: the blocks for `name`, called with `args`. */
  function Fire(s: State, tag: Tag, args: Args): (r: seq<Effect>)
    ensures |r| == |Dispatch.HandlersFor(s.callbacks, tag)|
    ensures forall i :: 0 <= i < |r| ==> r[i] == Invoked(Dispatch.HandlersFor(s.callbacks, tag)[i], args)
  {
    Calls(Dispatch.HandlersFor(s.callbacks, tag), args)
  }

  /** A fresh server reacts to no packet and no event. */
  lemma FreshServerIsSilent(config: Settings.Config, packet: Packet, from: Peer, tag: Tag, args: Args)
    ensures Received(New(config), packet, from) == []
    ensures Fire(New(config), tag, args) == []
  {
  }

  /** Registers `hids` under `tag`, one `on` call after another. */
  function OnAll(s: State, tag: Tag, hids: seq<nat>): State
  {
    s.(callbacks := Dispatch.OnAll(s.callbacks, tag, hids))
  }

  /**
   * After registering `hids` under `tag` on a fresh server, firing `tag` (or receiving a packet
   * of that type) calls exactly those blocks, in registration order, duplicates included.
   */
  lemma DispatchFollowsRegistration(config: Settings.Config, tag: Tag, hids: seq<nat>, args: Args, packet: Packet, from: Peer)
    requires TypeOf(packet) == tag
    ensures var s := OnAll(New(config), tag, hids);
      && |Fire(s, tag, args)| == |hids|
      && (forall i :: 0 <= i < |hids| ==> Fire(s, tag, args)[i] == Invoked(hids[i], args))
      && (forall i :: 0 <= i < |hids| ==> Received(s, packet, from)[i] == Invoked(hids[i], FromPacket(packet, from)))
  {
    Dispatch.OnAllAppends(New(config).callbacks, tag, hids);
  }

  /** `add_buddy(address)`: a new peer, dialling out through `tor`, appended under its bare id. */
  function AddBuddy(s: State, isAddress: string -> bool, address: string): (r: Change)
    ensures !isAddress(address) ==> r == Change(s, [], Some(InvalidAddress))
    ensures isAddress(address) ==> r.trace == [DialRequested(Settings.Proxy(s.config))]
    ensures isAddress(address) && !isAddress(Onion.AddressOf(Onion.Normalize(address))) ==>
      r.fault == Some(NoMethod) && r.server == s
    ensures isAddress(address) && isAddress(Onion.AddressOf(Onion.Normalize(address))) ==>
      && r.fault == None
      && r.server.(buddies := s.buddies) == s
      && Registry.Get(r.server.buddies, Onion.Normalize(address)).Some?
      && Registry.Get(r.server.buddies, Onion.Normalize(address)).value.id == Onion.Normalize(address)
      && Registry.Get(r.server.buddies, Onion.Normalize(address))
           == Some(Buddy.New(isAddress, Settings.Proxy(s.config), address, NoOffer, NoOffer).value.peer)
      && forall k :: k != Onion.Normalize(address) ==> Registry.Get(r.server.buddies, k) == Registry.Get(s.buddies, k)
  {
    match Buddy.New(isAddress, Settings.Proxy(s.config), address, NoOffer, NoOffer)
    case Err(f) => Change(s, [], Some(f))
    case Ok(step) =>
      match Registry.Append(isAddress, s.buddies, step.peer)
      case Err(f) => Change(s, step.trace, Some(f))
      case Ok(es) => Change(s.(buddies := es), step.trace, None)
  }

  /**
   * The buddy `add_buddy` files is what a later lookup finds, by its bare id and, unless the
   * registry already used the full address as a key, by that address too.
   */
  lemma AddBuddyThenLookup(s: State, isAddress: string -> bool, address: string)
    requires isAddress(address) && isAddress(Onion.AddressOf(Onion.Normalize(address)))
    ensures var added := Buddy.New(isAddress, Settings.Proxy(s.config), address, NoOffer, NoOffer).value.peer;
      var es := AddBuddy(s, isAddress, address).server.buddies;
      && Registry.Lookup(es, Onion.Normalize(address)) == Some(added)
      && (Onion.AddressOf(Onion.Normalize(address)) !in Registry.Keys(s.buddies) ==>
            Registry.Lookup(es, Onion.AddressOf(Onion.Normalize(address))) == Some(added))
  {
    var k := Onion.Normalize(address);
    var es := AddBuddy(s, isAddress, address).server.buddies;
    Onion.NormalizeAddressOf(k);
    assert Onion.AddressOf(k) != k by {
      assert |Onion.AddressOf(k)| > |k|;
    }
    assert k in Registry.Keys(es);
  }
}

=== FILE: session.dfy ===
/**
 * The Session orchestrator: configuration, the peer registry, the callback table with its
 * default handlers, and the profile setters that push to every registered peer. Handlers run
 * synchronously in registration order; the first one that raises ends the dispatch.
 */
module Session {
  import opened Common
  import opened Packets
  import Onion
  import Settings
  import Dispatch
  import opened Buddy
  import Registry
  import Lifecycle

  /** The blocks a Session table can hold: its five defaults and blocks registered by callers. */
  datatype Handler =
    | SendProfile                       // default `:verification` block
    | StoreName                         // default `:profile_name` block
    | StoreDescription                  // default `:profile_text` block
    | StoreAvatarAlpha                  // default `:profile_avatar_alpha` block
    | StoreAvatarRgb                    // default `:profile_avatar` block
    | Block(hid: nat)                   // a block passed to `on`
    | Scoped(peerId: string, hid: nat)  // a block passed to Buddy#on, filtered to that peer

  /** `release` stands for `Torchat.version`, which is defined outside the modelled files. */
  datatype State = State(
    config: Settings.Config,
    release: string,
    callbacks: Dispatch.Table<Handler>,
    buddies: Registry.Entries,
    name: Option<string>,
    description: Option<string>,
    client: Option<string>,
    version: Option<string>)

  /** The result of one dispatch: the (possibly updated) arguments, the effects, the raise. */
  datatype Outcome = Outcome(args: Args, trace: seq<Effect>, fault: Option<Fault>)

  datatype Delivery = Delivery(trace: seq<Effect>, fault: Option<Fault>)

  datatype Change = Change(session: State, trace: seq<Effect>, fault: Option<Fault>)

  const DefaultTags: set<Tag> :=
    {"verification", "profile_name", "profile_text", "profile_avatar_alpha", "profile_avatar"}

  /** `Session.new(config)`: an empty registry and the five default handlers. */
  function New(config: Settings.Config, release: string): (s: State)
    ensures Dispatch.HandlersFor(s.callbacks, "verification") == [SendProfile]
    ensures Dispatch.HandlersFor(s.callbacks, "profile_name") == [StoreName]
    ensures Dispatch.HandlersFor(s.callbacks, "profile_text") == [StoreDescription]
    ensures Dispatch.HandlersFor(s.callbacks, "profile_avatar_alpha") == [StoreAvatarAlpha]
    ensures Dispatch.HandlersFor(s.callbacks, "profile_avatar") == [StoreAvatarRgb]
    ensures forall tag :: tag !in DefaultTags ==> Dispatch.HandlersFor(s.callbacks, tag) == []
    ensures s.buddies == [] && s.name.None? && s.description.None?
    ensures s.client.None? && s.version.None? && s.config == config && s.release == release
  {
    var t := Dispatch.On(Dispatch.Empty(), "verification", SendProfile);
    var t := Dispatch.On(t, "profile_name", StoreName);
    var t := Dispatch.On(t, "profile_text", StoreDescription);
    var t := Dispatch.On(t, "profile_avatar_alpha", StoreAvatarAlpha);
    var t := Dispatch.On(t, "profile_avatar", StoreAvatarRgb);
    State(config, release, t, [], None, None, None, None)
  }

  /** `id`: the configured address with one trailing ".onion" removed. */
  function Id(s: State): string
  {
    Onion.Normalize(s.config.address)
  }

  /** `address`: the id with the suffix put back; normalising it gives the id again. */
  function Address(s: State): (r: string)
    ensures r == Id(s) + Onion.Suffix
    ensures Onion.Normalize(r) == Id(s)
  {
    Onion.NormalizeAddressOf(Id(s));
    Onion.AddressOf(Id(s))
  }

  /** `client`: the configured client name, "ruby-torchat" when none was set. */
  function ClientOf(s: State): (r: string)
    ensures s.client.Some? ==> r == s.client.value
    ensures s.client.None? ==> r == "ruby-torchat"
  {
    match s.client
    case Some(c) => c
    case None => "ruby-torchat"
  }

  /** `version`: the configured version, the library's own release when none was set. */
  function VersionOf(s: State): (r: string)
    ensures s.version.Some? ==> r == s.version.value
    ensures s.version.None? ==> r == s.release
  {
    match s.version
    case Some(v) => v
    case None => s.release
  }

  /** `buddy.send_packet` for each packet in turn; the first raise stops the rest. */
  function SendAll(b: Peer, packets: seq<Packet>): (r: Delivery)
    ensures r.fault.None? <==> b.outgoing.Some? || |packets| == 0
    ensures r.fault.Some? ==> r.fault == Some(PrematureSend) && r.trace == []
    ensures r.fault.None? ==> |r.trace| == |packets|
    ensures r.fault.None? ==> forall i :: 0 <= i < |packets| ==> r.trace[i] == Sent(b.outgoing.value.tid, packets[i])
    decreases |packets|
  {
    if |packets| == 0 then Delivery([], None)
    else match SendPacket(b, packets[0])
      case Err(f) => Delivery([], Some(f))
      case Ok(e) =>
        var rest := SendAll(b, packets[1..]);
        Delivery([e] + rest.trace, rest.fault)
  }

  /** The profile the default `:verification` handler sends, in order. */
  function ProfileBundle(s: State): seq<Packet>
  {
    [ClientName(ClientOf(s)), ClientVersion(VersionOf(s)), AddMe, StatusUpdate(Available)]
  }

  /** A default handler handed arguments it cannot use: the method call inside it raises. */
  function NoMethodOn(args: Args): Outcome
  {
    Outcome(args, [], Some(NoMethod))
  }

  /** One handler called with `args`. User blocks are opaque: only their invocation is recorded. */
  function Invoke(s: State, h: Handler, args: Args): (r: Outcome)
    ensures h.Block? || h.Scoped? ==> r.fault == None && r.args == args
    ensures h.SendProfile? ==> r.args == args
    ensures !(h.Block? || h.Scoped? || h.SendProfile?) ==> r.trace == []
    ensures forall i :: 0 <= i < |r.trace| ==> !r.trace[i].Fired?
  {
    match h
    case SendProfile =>
      (match args
       case OfPeer(b) =>
         var d := SendAll(b, ProfileBundle(s));
         Outcome(args, d.trace, d.fault)
       case _ => NoMethodOn(args))
    case StoreName =>
      (match args
       case FromPacket(pk, from) =>
         (match TextOf(pk)
          case Some(t) => Outcome(FromPacket(pk, from.(name := Some(t))), [], None)
          case None => NoMethodOn(args))
       case _ => NoMethodOn(args))
    case StoreDescription =>
      (match args
       case FromPacket(pk, from) =>
         (match TextOf(pk)
          case Some(t) => Outcome(FromPacket(pk, from.(description := Some(t))), [], None)
          case None => NoMethodOn(args))
       case _ => NoMethodOn(args))
    case StoreAvatarAlpha =>
      (match args
       case FromPacket(pk, from) =>
         (match DataOf(pk)
          case Some(d) => Outcome(FromPacket(pk, from.(avatar := from.avatar.(alpha := Some(d)))), [], None)
          case None => NoMethodOn(args))
       case _ => NoMethodOn(args))
    case StoreAvatarRgb =>
      (match args
       case FromPacket(pk, from) =>
         (match DataOf(pk)
          case Some(d) => Outcome(FromPacket(pk, from.(avatar := from.avatar.(rgb := Some(d)))), [], None)
          case None => NoMethodOn(args))
       case _ => NoMethodOn(args))
    case Block(hid) => Outcome(args, [Invoked(hid, args)], None)
    case Scoped(pid, hid) =>
      if Subject(args) == Some(pid) then Outcome(args, [Invoked(hid, args)], None)
      else Outcome(args, [], None)
  }

  predicate AllBlocks(hs: seq<Handler>)
  {
    forall i :: 0 <= i < |hs| ==> hs[i].Block?
  }

  /**
   * The handlers in order, each seeing the arguments as the previous one left them; the first
   * raise ends the chain. A chain of plain blocks invokes each of them once, in order.
   */
  function Run(s: State, hs: seq<Handler>, args: Args): (r: Outcome)
    ensures |hs| == 0 ==> r == Outcome(args, [], None)
    ensures AllBlocks(hs) ==> r.fault == None && r.args == args && |r.trace| == |hs|
    ensures AllBlocks(hs) ==> forall i :: 0 <= i < |hs| ==> r.trace[i] == Invoked(hs[i].hid, args)
    ensures forall i :: 0 <= i < |r.trace| ==> !r.trace[i].Fired?
    decreases |hs|
  {
    if |hs| == 0 then Outcome(args, [], None)
    else
      var first := Invoke(s, hs[0], args);
      if first.fault.Some? then first
      else
        var rest := Run(s, hs[1..], first.args);
        assert AllBlocks(hs) ==> AllBlocks(hs[1..]);
        Outcome(rest.args, first.trace + rest.trace, rest.fault)
  }

  /** Running one more handler after a chain: what the chain did, then what that handler does. */
  function Then(s: State, o: Outcome, h: Handler): Outcome
  {
    if o.fault.Some? then o
    else
      var last := Invoke(s, h, o.args);
      Outcome(last.args, o.trace + last.trace, last.fault)
  }

  /** A chain of one handler is that handler. */
  lemma RunSingle(s: State, h: Handler, args: Args)
    ensures Run(s, [h], args) == Invoke(s, h, args)
  {
    assert [h][1..] == [];
    var first := Invoke(s, h, args);
    assert first.trace + [] == first.trace;
  }

  lemma {:induction false} RunSnoc(s: State, hs: seq<Handler>, h: Handler, args: Args)
    ensures Run(s, hs + [h], args) == Then(s, Run(s, hs, args), h)
    decreases |hs|
  {
    if |hs| == 0 {
      assert hs + [h] == [h];
      RunSingle(s, h, args);
    } else {
      var first := Invoke(s, hs[0], args);
      if first.fault.None? {
        RunSnoc(s, hs[1..], h, first.args);
      }
      RunSnocStep(s, hs, h, args);
    }
  }

  lemma AppendAssociates<T>(a: seq<T>, b: seq<T>, c: seq<T>)
    ensures a + (b + c) == (a + b) + c
  {
  }

  /** The step of `RunSnoc`: one handler in front of a chain that already satisfies it. */
  lemma RunSnocStep(s: State, hs: seq<Handler>, h: Handler, args: Args)
    requires |hs| > 0
    requires var first := Invoke(s, hs[0], args);
      first.fault.None? ==> Run(s, hs[1..] + [h], first.args) == Then(s, Run(s, hs[1..], first.args), h)
    ensures Run(s, hs + [h], args) == Then(s, Run(s, hs, args), h)
  {
    var first := Invoke(s, hs[0], args);
    var xs := hs + [h];
    assert xs[0] == hs[0] && xs[1..] == hs[1..] + [h];
    if first.fault.Some? {
      assert Run(s, xs, args) == first;
      assert Run(s, hs, args) == first;
    } else {
      var rest := Run(s, hs[1..], first.args);
      var longer := Run(s, xs[1..], first.args);
      assert Run(s, xs, args) == Outcome(longer.args, first.trace + longer.trace, longer.fault);
      assert Run(s, hs, args) == Outcome(rest.args, first.trace + rest.trace, rest.fault);
      if rest.fault.None? {
        var last := Invoke(s, h, rest.args);
        assert longer == Outcome(last.args, rest.trace + last.trace, last.fault);
        AppendAssociates(first.trace, rest.trace, last.trace);
      }
    }
  }

  /** `on(tag) { … }`. */
  function On(s: State, tag: Tag, h: Handler): (r: State)
    ensures Dispatch.HandlersFor(r.callbacks, tag) == Dispatch.HandlersFor(s.callbacks, tag) + [h]
    ensures forall other :: other != tag ==>
      Dispatch.HandlersFor(r.callbacks, other) == Dispatch.HandlersFor(s.callbacks, other)
    ensures r.(callbacks := s.callbacks) == s
  {
    s.(callbacks := Dispatch.On(s.callbacks, tag, h))
  }

  /** `received(packet)`: the handlers for the packet's type, called with `(packet, packet.from)`. */
  function Received(s: State, packet: Packet, from: Peer): (r: Outcome)
    ensures r == Fire(s, TypeOf(packet), FromPacket(packet, from))
    ensures Dispatch.HandlersFor(s.callbacks, TypeOf(packet)) == [] ==>
      r == Outcome(FromPacket(packet, from), [], None)
    ensures var hs := Dispatch.HandlersFor(s.callbacks, TypeOf(packet));
      AllBlocks(hs) ==>
        && r == Outcome(FromPacket(packet, from), r.trace, None)
        && |r.trace| == |hs|
        && forall i :: 0 <= i < |hs| ==> r.trace[i] == Invoked(hs[i].hid, FromPacket(packet, from))
  {
    Run(s, Dispatch.HandlersFor(s.callbacks, TypeOf(packet)), FromPacket(packet, from))
  }

  /**
   * `fire(name, *args)`: the handlers for `name`, called with `args` in registration order. A
   * raising first handler is all that runs; plain blocks are each invoked once, in order.
   */
  function Fire(s: State, tag: Tag, args: Args): (r: Outcome)
    ensures var hs := Dispatch.HandlersFor(s.callbacks, tag);
      hs == [] ==> r == Outcome(args, [], None)
    ensures var hs := Dispatch.HandlersFor(s.callbacks, tag);
      |hs| > 0 && Invoke(s, hs[0], args).fault.Some? ==> r == Invoke(s, hs[0], args)
    ensures var hs := Dispatch.HandlersFor(s.callbacks, tag);
      AllBlocks(hs) ==>
        && r.fault == None
        && |r.trace| == |hs|
        && forall i :: 0 <= i < |hs| ==> r.trace[i] == Invoked(hs[i].hid, args)
  {
    Run(s, Dispatch.HandlersFor(s.callbacks, tag), args)
  }

  /**
   * A handler registered with `on` runs after every handler registered before it under the same
   * tag, and dispatch on any other tag is unaffected.
   */
  lemma FireAfterOn(s: State, tag: Tag, h: Handler, args: Args, other: Tag)
    requires other != tag
    ensures Fire(On(s, tag, h), tag, args) == Then(s, Fire(s, tag, args), h)
    ensures Fire(On(s, tag, h), other, args) == Fire(s, other, args)
  {
    RunSnoc(s, Dispatch.HandlersFor(s.callbacks, tag), h, args);
    RunOnOtherSession(s, On(s, tag, h), Dispatch.HandlersFor(s.callbacks, tag) + [h], args);
    RunOnOtherSession(s, On(s, tag, h), Dispatch.HandlersFor(s.callbacks, other), args);
  }

  /** What handlers read from the session: the client name, the version and the release. */
  predicate SameProfile(s: State, s': State)
  {
    s.client == s'.client && s.version == s'.version && s.release == s'.release
  }

  /**
   * Handlers read nothing but the profile, so a chain runs the same in two sessions with the
   * same profile, whatever their tables and registries hold.
   */
  lemma {:induction false} RunOnOtherSession(s: State, s': State, hs: seq<Handler>, args: Args)
    requires SameProfile(s, s')
    ensures Run(s', hs, args) == Run(s, hs, args)
    decreases |hs|
  {
    if |hs| > 0 {
      assert ProfileBundle(s') == ProfileBundle(s);
      assert Invoke(s', hs[0], args) == Invoke(s, hs[0], args);
      RunOnOtherSession(s, s', hs[1..], Invoke(s, hs[0], args).args);
    }
  }

  /** `Buddy#on`: a session block that only runs when its first argument is, or comes from, `p`. */
  function OnBehalfOf(s: State, p: Peer, tag: Tag, hid: nat): (r: State)
    ensures Dispatch.HandlersFor(r.callbacks, tag) == Dispatch.HandlersFor(s.callbacks, tag) + [Scoped(p.id, hid)]
    ensures r.(callbacks := s.callbacks) == s
  {
    On(s, tag, Scoped(p.id, hid))
  }

  /** A block registered through Buddy#on is invoked exactly when the event concerns its peer. */
  lemma ScopedBlockFiltersByPeer(s: State, p: Peer, tag: Tag, hid: nat, args: Args)
    requires Dispatch.HandlersFor(s.callbacks, tag) == []
    ensures Fire(OnBehalfOf(s, p, tag, hid), tag, args).trace ==
      (if Subject(args) == Some(p.id) then [Invoked(hid, args)] else [])
  {
    FireAfterOn(s, tag, Scoped(p.id, hid), args, tag + "'");
  }

  /**
   * The default `:verification` handler sends the client name, the version, `:add_me` and
   * `:status :available`, in that order, to the verified peer; a peer without an outgoing
   * transport makes the first send raise, so nothing is sent.
   */
  lemma DefaultVerificationHandshake(config: Settings.Config, release: string, b: Peer)
    ensures var o := Fire(New(config, release), "verification", OfPeer(b));
      && (b.outgoing.Some? ==>
            && o.fault == None
            && o.trace == [Sent(b.outgoing.value.tid, ClientName("ruby-torchat")),
                           Sent(b.outgoing.value.tid, ClientVersion(release)),
                           Sent(b.outgoing.value.tid, AddMe),
                           Sent(b.outgoing.value.tid, StatusUpdate(Available))])
      && (b.outgoing.None? ==> o.fault == Some(PrematureSend) && o.trace == [])
  {
    var s := New(config, release);
    assert Run(s, [SendProfile], OfPeer(b)) == Invoke(s, SendProfile, OfPeer(b));
  }

  /**
   * The default inbound profile handlers: `profile_name` and `profile_text` store the packet's text
   * as the sender's name or description, the two avatar packets store their data as the sender's
   * rgb or alpha buffer; nothing is sent and nothing else about the sender changes.
   */
  lemma DefaultProfileHandlers(config: Settings.Config, release: string, packet: Packet, from: Peer)
    ensures var o := Received(New(config, release), packet, from);
      && (packet.ProfileName? ==> o == Outcome(FromPacket(packet, from.(name := Some(packet.text))), [], None))
      && (packet.ProfileText? ==> o == Outcome(FromPacket(packet, from.(description := Some(packet.text))), [], None))
      && (packet.ProfileAvatar? ==>
            o == Outcome(FromPacket(packet, from.(avatar := from.avatar.(rgb := Some(packet.data)))), [], None))
      && (packet.ProfileAvatarAlpha? ==>
            o == Outcome(FromPacket(packet, from.(avatar := from.avatar.(alpha := Some(packet.data)))), [], None))
      && (TypeOf(packet) !in DefaultTags ==> o == Outcome(FromPacket(packet, from), [], None))
  {
    InboundProfile(New(config, release), packet, from);
  }

  /** The same for any session whose profile tags hold just the default handlers. */
  lemma InboundProfile(s: State, packet: Packet, from: Peer)
    requires Dispatch.HandlersFor(s.callbacks, "profile_name") == [StoreName]
    requires Dispatch.HandlersFor(s.callbacks, "profile_text") == [StoreDescription]
    requires Dispatch.HandlersFor(s.callbacks, "profile_avatar_alpha") == [StoreAvatarAlpha]
    requires Dispatch.HandlersFor(s.callbacks, "profile_avatar") == [StoreAvatarRgb]
    requires forall tag :: tag !in DefaultTags ==> Dispatch.HandlersFor(s.callbacks, tag) == []
    ensures var o := Received(s, packet, from);
      && (packet.ProfileName? ==> o == Outcome(FromPacket(packet, from.(name := Some(packet.text))), [], None))
      && (packet.ProfileText? ==> o == Outcome(FromPacket(packet, from.(description := Some(packet.text))), [], None))
      && (packet.ProfileAvatar? ==>
            o == Outcome(FromPacket(packet, from.(avatar := from.avatar.(rgb := Some(packet.data)))), [], None))
      && (packet.ProfileAvatarAlpha? ==>
            o == Outcome(FromPacket(packet, from.(avatar := from.avatar.(alpha := Some(packet.data)))), [], None))
      && (TypeOf(packet) !in DefaultTags ==> o == Outcome(FromPacket(packet, from), [], None))
  {
    match packet
    case ProfileName(_) => ReceivedBySole(s, StoreName, packet, from);
    case ProfileText(_) => ReceivedBySole(s, StoreDescription, packet, from);
    case ProfileAvatar(_) => ReceivedBySole(s, StoreAvatarRgb, packet, from);
    case ProfileAvatarAlpha(_) => ReceivedBySole(s, StoreAvatarAlpha, packet, from);
    case _ =>
  }

  /** A packet type with a single handler: receiving the packet is calling that handler. */
  lemma ReceivedBySole(s: State, h: Handler, packet: Packet, from: Peer)
    requires Dispatch.HandlersFor(s.callbacks, TypeOf(packet)) == [h]
    ensures Received(s, packet, from) == Invoke(s, h, FromPacket(packet, from))
  {
    RunSingle(s, h, FromPacket(packet, from));
  }

  /**
   * `buddy.send_packet(packet)` for every registered peer in registry order. Each peer gets
   * exactly one packet; the first peer without an outgoing transport raises and ends the push.
   */
  function Push(es: Registry.Entries, packet: Packet): (r: Delivery)
    ensures |r.trace| <= |es|
    ensures forall i :: 0 <= i < |r.trace| ==>
      es[i].peer.outgoing.Some? && r.trace[i] == Sent(es[i].peer.outgoing.value.tid, packet)
    ensures r.fault.None? <==> forall i :: 0 <= i < |es| ==> es[i].peer.outgoing.Some?
    ensures r.fault.None? ==> |r.trace| == |es|
    ensures r.fault.Some? ==> r.fault == Some(PrematureSend) && es[|r.trace|].peer.outgoing.None?
    decreases |es|
  {
    if |es| == 0 then Delivery([], None)
    else match SendPacket(es[0].peer, packet)
      case Err(f) => Delivery([], Some(f))
      case Ok(e) =>
        var rest := Push(es[1..], packet);
        Delivery([e] + rest.trace, rest.fault)
  }

  /** `name = value`: stores the name, then pushes one `:profile_name` to every registered peer. */
  function SetName(s: State, value: string): (r: Change)
    ensures r.session == s.(name := Some(value))
    ensures r.fault.None? <==> forall i :: 0 <= i < |s.buddies| ==> s.buddies[i].peer.outgoing.Some?
    ensures r.fault.None? ==> |r.trace| == |s.buddies| && forall i :: 0 <= i < |s.buddies| ==>
      r.trace[i] == Sent(s.buddies[i].peer.outgoing.value.tid, ProfileName(value))
    ensures |r.trace| <= |s.buddies| && forall i :: 0 <= i < |r.trace| ==>
      s.buddies[i].peer.outgoing.Some? && r.trace[i] == Sent(s.buddies[i].peer.outgoing.value.tid, ProfileName(value))
    ensures r.fault.Some? ==> r.fault == Some(PrematureSend) && s.buddies[|r.trace|].peer.outgoing.None?
  {
    var d := Push(s.buddies, ProfileName(value));
    Change(s.(name := Some(value)), d.trace, d.fault)
  }

  /** `description = value`: stores it, then pushes one `:profile_text` to every registered peer. */
  function SetDescription(s: State, value: string): (r: Change)
    ensures r.session == s.(description := Some(value))
    ensures r.fault.None? <==> forall i :: 0 <= i < |s.buddies| ==> s.buddies[i].peer.outgoing.Some?
    ensures r.fault.None? ==> |r.trace| == |s.buddies| && forall i :: 0 <= i < |s.buddies| ==>
      r.trace[i] == Sent(s.buddies[i].peer.outgoing.value.tid, ProfileText(value))
    ensures |r.trace| <= |s.buddies| && forall i :: 0 <= i < |r.trace| ==>
      s.buddies[i].peer.outgoing.Some? && r.trace[i] == Sent(s.buddies[i].peer.outgoing.value.tid, ProfileText(value))
    ensures r.fault.Some? ==> r.fault == Some(PrematureSend) && s.buddies[|r.trace|].peer.outgoing.None?
  {
    var d := Push(s.buddies, ProfileText(value));
    Change(s.(description := Some(value)), d.trace, d.fault)
  }

  /**
   * `add_buddy(address)`: constructs a peer owned by this session (which dials out, having no
   * transport yet) and appends it to the registry under its bare id.
   */
  function AddBuddy(s: State, isAddress: string -> bool, address: string): (r: Change)
    ensures !isAddress(address) ==> r == Change(s, [], Some(InvalidAddress))
    ensures isAddress(address) ==> r.trace == [DialRequested(Settings.Proxy(s.config))]
    ensures isAddress(address) && !isAddress(Onion.AddressOf(Onion.Normalize(address))) ==>
      r.fault == Some(NoMethod) && r.session == s
    ensures isAddress(address) && isAddress(Onion.AddressOf(Onion.Normalize(address))) ==>
      && r.fault == None
      && r.session.(buddies := s.buddies) == s
      && Registry.Get(r.session.buddies, Onion.Normalize(address)).Some?
      && Registry.Get(r.session.buddies, Onion.Normalize(address)).value.connecting
      && Registry.Get(r.session.buddies, Onion.Normalize(address)).value.id == Onion.Normalize(address)
      && Registry.Get(r.session.buddies, Onion.Normalize(address))
           == Some(Buddy.New(isAddress, Settings.Proxy(s.config), address, NoOffer, NoOffer).value.peer)
      && Registry.Get(r.session.buddies, Onion.Normalize(address)).value.outgoing.None?
      && !Registry.Get(r.session.buddies, Onion.Normalize(address)).value.connected
      && forall k :: k != Onion.Normalize(address) ==> Registry.Get(r.session.buddies, k) == Registry.Get(s.buddies, k)
  {
    match Buddy.New(isAddress, Settings.Proxy(s.config), address, NoOffer, NoOffer)
    case Err(f) => Change(s, [], Some(f))
    case Ok(step) =>
      match Registry.Append(isAddress, s.buddies, step.peer)
      case Err(f) => Change(s, step.trace, Some(f))
      case Ok(es) => Change(s.(buddies := es), step.trace, None)
  }

  /**
   * Runs the handlers of every event a peer transition fired, in trace order, with this session's
   * table; effects that are not events pass through. The result holds no unexpanded event.
   */
  function Deliver(s: State, trace: seq<Effect>): (r: Delivery)
    ensures forall i :: 0 <= i < |r.trace| ==> !r.trace[i].Fired?
    ensures (forall i :: 0 <= i < |trace| ==> !trace[i].Fired?) ==> r == Delivery(trace, None)
    decreases |trace|
  {
    if |trace| == 0 then Delivery([], None)
    else Join(DeliverOne(s, trace[0]), Deliver(s, trace[1..]))
  }

  /** One effect: an event becomes what its handlers do; anything else passes through. */
  function DeliverOne(s: State, e: Effect): (r: Delivery)
    ensures forall i :: 0 <= i < |r.trace| ==> !r.trace[i].Fired?
    ensures !e.Fired? ==> r == Delivery([e], None)
  {
    match e
    case Fired(tag, args) =>
      var o := Fire(s, tag, args);
      Delivery(o.trace, o.fault)
    case _ => Delivery([e], None)
  }

  /** The first delivery, then the second unless the first raised. */
  function Join(d: Delivery, e: Delivery): Delivery
  {
    if d.fault.Some? then d else Delivery(d.trace + e.trace, e.fault)
  }

  /**
   * Delivering two traces back to back is delivering the first and then, unless it raised, the
   * second: events are expanded in trace order and a raise ends the rest.
   */
  lemma {:induction false} DeliverAppend(s: State, a: seq<Effect>, b: seq<Effect>)
    ensures Deliver(s, a + b) == Join(Deliver(s, a), Deliver(s, b))
    decreases |a|
  {
    if |a| == 0 {
      assert a + b == b;
    } else {
      assert (a + b)[0] == a[0];
      assert (a + b)[1..] == a[1..] + b;
      DeliverAppend(s, a[1..], b);
      var head := DeliverOne(s, a[0]);
      if head.fault.None? {
        var rest := Deliver(s, a[1..]);
        if rest.fault.None? {
          AppendAssociates(head.trace, rest.trace, Deliver(s, b).trace);
        }
      }
    }
  }

  /** A transition's trace of one effect followed by one event: the effect, then that event's handlers. */
  lemma DeliverEffectThenEvent(s: State, e: Effect, tag: Tag, args: Args)
    requires !e.Fired?
    ensures Deliver(s, [e, Fired(tag, args)]) == Delivery([e] + Fire(s, tag, args).trace, Fire(s, tag, args).fault)
  {
    assert [e, Fired(tag, args)][1..] == [Fired(tag, args)];
    assert [Fired(tag, args)][1..] == [];
    assert Fire(s, tag, args).trace + [] == Fire(s, tag, args).trace;
  }

  /** A trace that is a single event: exactly that event's handlers. */
  lemma DeliverEvent(s: State, tag: Tag, args: Args)
    ensures Deliver(s, [Fired(tag, args)]) == Delivery(Fire(s, tag, args).trace, Fire(s, tag, args).fault)
  {
    assert [Fired(tag, args)][1..] == [];
    assert Fire(s, tag, args).trace + [] == Fire(s, tag, args).trace;
  }

  /** What a registered peer gets from its session: the configured proxy and the own address. */
  function EnvOf(s: State): Lifecycle.Env
  {
    Lifecycle.Env(Settings.Proxy(s.config), Address(s))
  }

  /**
   * One signal to the peer registered under `key`. The registry holds the peer object itself, so
   * the state the transition leaves (even when it raises) is what the registry holds afterwards;
   * every transition fires its event last, and that event runs through the session's handlers.
   * A key with no peer changes nothing.
   */
  function Signal(s: State, key: string, sig: Lifecycle.Signal): (r: Change)
    ensures Registry.Get(s.buddies, key).None? ==> r == Change(s, [], None)
    ensures r.session.(buddies := s.buddies) == s
    ensures |r.session.buddies| == |s.buddies|
    ensures forall k :: k != key ==> Registry.Get(r.session.buddies, k) == Registry.Get(s.buddies, k)
    ensures Registry.Get(s.buddies, key).Some? ==>
      var st := Lifecycle.Apply(Registry.Get(s.buddies, key).value, EnvOf(s), sig);
      var d := Deliver(r.session, st.trace);
      && Registry.Get(r.session.buddies, key) == Some(st.peer)
      && r.trace == d.trace
      && r.fault == (if d.fault.Some? then d.fault else st.fault)
    ensures forall i :: 0 <= i < |r.trace| ==> !r.trace[i].Fired?
  {
    match Registry.Get(s.buddies, key)
    case None => Change(s, [], None)
    case Some(p) =>
      var st := Lifecycle.Apply(p, EnvOf(s), sig);
      var s' := s.(buddies := Registry.Put(s.buddies, key, st.peer));
      var d := Deliver(s', st.trace);
      Change(s', d.trace, if d.fault.Some? then d.fault else st.fault)
  }

  /** The sender as the handlers left it: the store handlers update the packet's `from`. */
  function SenderAfter(o: Outcome, p: Peer): Peer
  {
    match o.args
    case FromPacket(_, q) => q
    case _ => p
  }

  /**
   * A packet from the peer registered under `key`: `received` runs with that peer as the sender,
   * and whatever the handlers stored on it (up to a raise) stays on the registered peer.
   */
  function ReceivedFrom(s: State, key: string, packet: Packet): (r: Change)
    ensures Registry.Get(s.buddies, key).None? ==> r == Change(s, [], None)
    ensures r.session.(buddies := s.buddies) == s
    ensures |r.session.buddies| == |s.buddies|
    ensures forall k :: k != key ==> Registry.Get(r.session.buddies, k) == Registry.Get(s.buddies, k)
    ensures Registry.Get(s.buddies, key).Some? ==>
      var o := Received(s, packet, Registry.Get(s.buddies, key).value);
      && Registry.Get(r.session.buddies, key) == Some(SenderAfter(o, Registry.Get(s.buddies, key).value))
      && r.trace == o.trace
      && r.fault == o.fault
  {
    match Registry.Get(s.buddies, key)
    case None => Change(s, [], None)
    case Some(p) =>
      var o := Received(s, packet, p);
      Change(s.(buddies := Registry.Put(s.buddies, key, SenderAfter(o, p))), o.trace, o.fault)
  }
}

=== FILE: settings.dfy ===
/** The configuration values the core reads: the listening endpoint, the proxy endpoint and the own address. */
module Settings {
  import opened Common

  /** A host and an integer port, as handed to the reactor. */
  datatype Endpoint = Endpoint(host: string, port: int)

  /** A configured port: YAML yields either an integer or a string. */
  datatype PortSetting = PortNumber(n: int) | PortText(text: string)

  datatype HostPort = HostPort(host: string, port: PortSetting)

  /** `connection.incoming`, `connection.outgoing` and `address` of the loaded configuration. */
  datatype Config = Config(address: string, incoming: HostPort, outgoing: HostPort)

  predicate IsDigit(c: char) { '0' <= c <= '9' }

  /** The longest run of decimal digits at the front of `s`. */
  function LeadingDigits(s: string): (r: string)
    ensures r <= s
    ensures forall i :: 0 <= i < |r| ==> IsDigit(r[i])
    ensures |r| == |s| || !IsDigit(s[|r|])
  {
    if |s| == 0 || !IsDigit(s[0]) then "" else [s[0]] + LeadingDigits(s[1..])
  }

  /** The number a string of decimal digits denotes. */
  function DigitsValue(ds: string): nat
    requires forall i :: 0 <= i < |ds| ==> IsDigit(ds[i])
  {
    if |ds| == 0 then 0
    else assert IsDigit(ds[|ds| - 1]); DigitsValue(ds[..|ds| - 1]) * 10 + (ds[|ds| - 1] as int - '0' as int)
  }

  /** `String#to_i` on an optional sign followed by digits; no digits gives 0. */
  function ParseInt(s: string): int
  {
    if |s| > 0 && s[0] == '-' then -(DigitsValue(LeadingDigits(s[1..])) as int)
    else if |s| > 0 && s[0] == '+' then DigitsValue(LeadingDigits(s[1..]))
    else DigitsValue(LeadingDigits(s))
  }

  /** `to_i` on a configured port. */
  function ToI(p: PortSetting): int
  {
    match p
    case PortNumber(n) => n
    case PortText(t) => ParseInt(t)
  }

  /** The decimal spelling of a natural number, without leading zeros. */
  function Decimal(n: nat): (r: string)
    ensures |r| > 0
    ensures forall i :: 0 <= i < |r| ==> IsDigit(r[i])
    ensures |r| > 1 ==> r[0] != '0'
  {
    var d := [(n % 10 + '0' as int) as char];
    if n < 10 then d else Decimal(n / 10) + d
  }

  lemma {:induction false} DigitsValueOfDecimal(n: nat)
    ensures DigitsValue(Decimal(n)) == n
  {
    var r := Decimal(n);
    if n >= 10 {
      assert r[..|r| - 1] == Decimal(n / 10);
      DigitsValueOfDecimal(n / 10);
    }
  }

  /** A port written in decimal, with or without a minus sign, is read back as that number. */
  lemma ParseIntOfDecimal(n: nat)
    ensures ParseInt(Decimal(n)) == n
    ensures ParseInt("-" + Decimal(n)) == -(n as int)
  {
    var r := Decimal(n);
    assert LeadingDigits(r) == r;
    assert ("-" + r)[1..] == r;
    DigitsValueOfDecimal(n);
  }

  /** `tor`: the proxy endpoint taken from `connection.outgoing`. */
  function Proxy(c: Config): (r: Endpoint)
    ensures r.host == c.outgoing.host && r.port == ToI(c.outgoing.port)
  {
    Endpoint(c.outgoing.host, ToI(c.outgoing.port))
  }

  /**
   * `start(host, port)`: an explicit host or port is used as given; a missing one falls back to
   * `connection.incoming`, the port converted with `to_i`.
   */
  function ListenEndpoint(c: Config, host: Option<string>, port: Option<int>): (r: Endpoint)
    ensures host.Some? ==> r.host == host.value
    ensures host.None? ==> r.host == c.incoming.host
    ensures port.Some? ==> r.port == port.value
    ensures port.None? ==> r.port == ToI(c.incoming.port)
  {
    Endpoint(
      match host case Some(h) => h case None => c.incoming.host,
      match port case Some(n) => n case None => ToI(c.incoming.port))
  }

  /** A configured decimal port text is bound as that number when `start` is given no port. */
  lemma ListenOnConfiguredText(c: Config, host: Option<string>, n: nat)
    requires c.incoming.port == PortText(Decimal(n))
    ensures ListenEndpoint(c, host, None).port == n
  {
    ParseIntOfDecimal(n);
  }

  /**
   * The proxy is dialled at the configured outgoing host, and a decimal port text there, signed
   * or not, as that number.
   */
  lemma ProxyOnConfiguredText(c: Config, n: nat)
    ensures Proxy(c).host == c.outgoing.host
    ensures c.outgoing.port == PortText(Decimal(n)) ==> Proxy(c).port == n
    ensures c.outgoing.port == PortText("-" + Decimal(n)) ==> Proxy(c).port == -(n as int)
  {
    ParseIntOfDecimal(n);
  }
}
